=== FILE: README.md ===
# ProSmart-AQI dashboard core, modelled in Dafny

The dashboard reads three documents from a Firebase realtime database: keyed sensor readings, keyed air-quality forecasts grouped by period, and a metadata document listing the data sources. It derives an air-quality index (AQI) from each record's PM2.5 concentration and a confidence score from each forecast's period. It then shows the current index, a trend, summaries and per-period forecast cards. A polling refresh cycle replaces the held data when a change detector fires.

This project models that core as pure Dafny functions over immutable datatypes:

- `Rounding`: `Math.round` and the numeric value of `toFixed(0)` and `toFixed(1)` on exact reals.
- `Aqi`: the six-segment PM2.5-to-index calculator. It is the simplified form of the United States EPA table used by the code: the first segment starts at 0, there is no truncation to 0.1, and the top slope is unbounded.
- `Confidence`: the fixed period-to-confidence table with its default of 70.
- `ChangeDetector`: the length-plus-first-three-elements change test, as a predicate and as the early-return loop.
- `Sorting`: the stable descending sort the normalisers apply, as an insertion sort on sequences.
- `Normalizer`: turning raw keyed entries into readings and forecasts with their derived fields, sorted newest first.
- `Grouping`: `predictionsByPeriod`, a reduce into period groups in first-appearance order.
- `Analytics`: `currentAQI`, `getAQITrend`, `weeklyTrend`, `sensorAnalytics`, `predictionAnalytics` and `formatDataForChart`.
- `Refresh`: one `loadData` cycle as a state transition over an abstract outcome of the three fetches.
- `StatusCard`, `PredictionCard`, `DataSourceInfo`: the display classifiers, placeholders and the data-source label transform.

Timestamps are integers and concentrations are `real`. A `'--'` placeholder is `None`. HTTP, JSON parsing and the clock are abstracted into parameters: a `Fetched` payload or failure per request, a `CycleOutcome` per cycle, and `now` for the clock.

What the code does, where it may surprise:

- **A failed sensor fetch empties the readings.** The `catch` at frontend/src/App.jsx:59-63, which would keep held data, is never reached by a fetch failure, because each fetch catches its own error and returns `[]` or `null` (frontend/src/components/services/firebaseApi.js:18-21, 50-53, 61-64). A failed sensor request therefore yields `[]`. Its length differs from non-empty held readings, so the change detector replaces them and the dashboard still reports itself connected. `Refresh.FailedSensorFetchClearsReadings` states this.
- **Halves round up.** `Math.round` rounds halves towards +infinity, not away from zero. `toFixed` rounds the magnitude, so halves go away from zero.
- **Small rises read as improving.** The weekly trend tests the trend after it has been rounded to one decimal. A rise below 0.05 percent therefore reads as improving (`Analytics.WorseningIffRise`).
- **Model confidence is the first "week" forecast's score.** Forecasts straight from the normaliser always give 75 (`Analytics.ModelConfidenceIsWeekScore`).

## Model

| member | source | states |
|---|---|---|
| Rounding.Round | frontend/src/components/services/firebaseApi.js:84-89 | `Math.round(x)` is the integer within half a unit of `x`, halves going up |
| Rounding.ToFixed0 | frontend/src/App.jsx:108 | `toFixed(0)` yields an integer within half a unit of its argument, keeping the argument's sign |
| Rounding.ToFixed1 | frontend/src/App.jsx:93 | `toFixed(1)` is a whole number of tenths, the tenth nearest its argument with halves away from zero; it is positive exactly when the argument is at least 0.05 |
| Rounding.RoundMonotone | frontend/src/components/services/firebaseApi.js:84-89 | `Math.round` never decreases as its argument grows |
| Rounding.ToFixed0Between | frontend/src/App.jsx:108 | a value between two integers rounds to an integer between them |
| Aqi.Band | frontend/src/components/services/firebaseApi.js:84-89 | the calculator has six segments, numbered 0 to 5 |
| Aqi.AqiOf | frontend/src/components/services/firebaseApi.js:84-89 | each concentration band lands in its index band: [0,12] in [0,50], (12,35.4] in [51,100], (35.4,55.4] in [101,150], (55.4,150.4] in [151,200], (150.4,250.4] in [201,300], above 250.4 at least 301; non-negative input gives a non-negative index |
| Aqi.CalculateAqi | frontend/src/components/services/firebaseApi.js:81-90 | an absent or zero PM2.5 field gives index 0 |
| Aqi.AqiInBand | frontend/src/components/services/firebaseApi.js:84-89 | a concentration of band k has an index between band k's lowest and highest index |
| Aqi.AqiMonotone | frontend/src/components/services/firebaseApi.js:84-89 | the index never decreases as the concentration grows, across segment boundaries too |
| Aqi.WorkedExamples | frontend/src/components/services/firebaseApi.js:84 | PM2.5 of 10 gives 42 and 5 gives 21 |
| Records.Pm25OrZero | frontend/src/components/services/firebaseApi.js:82 | the falsy default of `PM2_5` reads an absent field as 0 and a present one as itself |
| Confidence.CalculateConfidence | frontend/src/components/services/firebaseApi.js:93-104 | scores 92/95/88/82/75/65/68 for "6hours"/"hour"/"day"/"48hours"/"week"/"month"/"15days", 70 for any other label, always within [65,95] |
| Confidence.DefaultOnlyForUnknown | frontend/src/components/services/firebaseApi.js:103 | the score is 70 exactly for labels outside the table |
| ChangeDetector.HeadCount | frontend/src/components/services/firebaseApi.js:72 | `Math.min(3, n)`: all elements are compared when there are three or fewer, exactly three otherwise |
| ChangeDetector.HasDataChanged | frontend/src/components/services/firebaseApi.js:68-78 | an absent old sequence or differing lengths count as changed; equal sequences never do |
| ChangeDetector.HasDataChangedLoop | frontend/src/components/services/firebaseApi.js:68-78 | the early-return loop decides exactly "absent, lengths differ, or one of the first three elements differs" |
| ChangeDetector.MissesChangeBeyondHead | frontend/src/components/services/firebaseApi.js:71-77 | with equal lengths and equal first three elements, a difference further down is not reported |
| ChangeDetector.MissesFourthElement | frontend/src/components/services/firebaseApi.js:72-76 | [1,2,3,4] against [1,2,3,5] reports no change |
| ChangeDetector.DetectsHeadChange | frontend/src/components/services/firebaseApi.js:72-75 | a different element among the first three is reported |
| ChangeDetector.DetectsPrepended | frontend/src/components/services/firebaseApi.js:69 | a reading prepended to the held ones is reported |
| Sorting.ConsSorted | frontend/src/components/services/firebaseApi.js:17 | prepending a key no smaller than the head keeps a sequence sorted newest first |
| Sorting.Insert | frontend/src/components/services/firebaseApi.js:17 | inserting into a sorted sequence keeps it sorted and adds exactly that one element |
| Sorting.ConsBehind | frontend/src/components/services/firebaseApi.js:17 | an element placed behind a head with a larger key leaves the head leading a sorted sequence with exactly that element more |
| Sorting.SortDesc | frontend/src/components/services/firebaseApi.js:17 | the comparator `b - a` yields a permutation of the input sorted by non-increasing key |
| Sorting.SortKeepsElements | frontend/src/components/services/firebaseApi.js:49 | an element is in the sorted output exactly when it is in the input |
| Sorting.KeyClassCons | frontend/src/components/services/firebaseApi.js:17 | the equal-key elements of a prepended sequence are the head's contribution followed by the tail's |
| Sorting.InsertKeyClass | frontend/src/components/services/firebaseApi.js:17 | an inserted element goes ahead of every element with its key |
| Sorting.SortIsStable | frontend/src/components/services/firebaseApi.js:17 | records with equal keys keep their input order, as the stable `Array.prototype.sort` leaves them |
| Sorting.CountedOnceApart | frontend/src/components/services/firebaseApi.js:13-17 | an element that occurs at most once is not found again later |
| Sorting.MultisetNoRepeats | frontend/src/components/services/firebaseApi.js:13-17 | a sequence without repeats counts each element at most once |
| Normalizer.MakeReading | frontend/src/components/services/firebaseApi.js:13-16 | a reading keeps its entry's key and fields, and its index is the one computed from its own PM2.5 field, since the derived field is written after the spread |
| Normalizer.ReadingsOf | frontend/src/components/services/firebaseApi.js:13-16 | one reading per entry, in entry order, carrying the entry's key, values and derived index |
| Normalizer.NormalizeSensorData | frontend/src/components/services/firebaseApi.js:10-17 | a null document gives no readings; otherwise every entry becomes exactly one reading with `aqi_calculated = calculateAQI(values)` (a permutation of the mapped entries), sorted newest first |
| Normalizer.MakePrediction | frontend/src/components/services/firebaseApi.js:38-44 | a forecast keeps its key, its period and its fields, and its index and confidence are those of its own PM2.5 field and period, since the derived fields are written after the spread |
| Normalizer.PeriodRecords | frontend/src/components/services/firebaseApi.js:37-45 | one record per entry of a period, in entry order, carrying the period and its derived fields |
| Normalizer.PeriodRecordsFrom | frontend/src/components/services/firebaseApi.js:37-45 | every record of a period carries that period and the timestamp and fields of one of its entries |
| Normalizer.Flatten | frontend/src/components/services/firebaseApi.js:32-47 | non-object periods are skipped; the count is the total of the entries of the well-formed periods; every record comes from an entry of its own period; every such entry yields a record |
| Normalizer.FlattenAppend | frontend/src/components/services/firebaseApi.js:35-47 | the period loop distributes over concatenation of the period list |
| Normalizer.SkipsMalformedPeriod | frontend/src/components/services/firebaseApi.js:36 | a period whose value is not an object contributes nothing, wherever it stands |
| Normalizer.NormalizePredictions | frontend/src/components/services/firebaseApi.js:30-49 | a null document gives no forecasts; otherwise a permutation of the flattened records, each carrying `calculateAQI(values)` and `calculateConfidence(period)`, sorted newest first |
| Normalizer.NormalizersAreStable | frontend/src/components/services/firebaseApi.js:17 | both normalisers keep entry order among records of the same instant |
| Normalizer.ReadingsOfNoRepeats | frontend/src/components/services/firebaseApi.js:13 | distinct keys give distinct readings |
| Normalizer.OneReadingPerInstant | frontend/src/components/services/firebaseApi.js:13-17 | with distinct keys, two readings of the same instant are the same reading |
| Normalizer.SensorStrictlyDescending | frontend/src/components/services/firebaseApi.js:13-17 | with distinct keys, readings come out strictly newest first |
| Normalizer.SensorExample | frontend/src/components/services/firebaseApi.js:13-17 | a one-entry document with PM2.5 of 10 gives one reading with index 42 |
| Normalizer.PredictionExample | frontend/src/components/services/firebaseApi.js:35-49 | a "6hours" entry with PM2.5 of 5 gives one forecast with index 21 and confidence 92 |
| Grouping.Lookup | frontend/src/App.jsx:82-83 | `acc[period]` is absent exactly when no group carries the label, otherwise the group of a pair with that label |
| Grouping.OfPeriod | frontend/src/App.jsx:80-86 | the reference filter: holds exactly the forecasts of one period, drawn from the input |
| Grouping.AddToGroup | frontend/src/App.jsx:81-84 | a reduce step appends the record to its period's group, opening the group when the label is new, and leaves other groups alone |
| Grouping.AddToGroupLabels | frontend/src/App.jsx:82 | a reduce step adds only the record's label |
| Grouping.LabelsCons | frontend/src/App.jsx:80-86 | the labels of a prepended grouping are the head's label plus the rest's |
| Grouping.AddToGroupDistinct | frontend/src/App.jsx:82 | a reduce step keeps labels distinct |
| Grouping.AddToGroupLabelled | frontend/src/App.jsx:82-83 | a reduce step keeps every group non-empty and holding only its own period |
| Grouping.GroupByPeriod | frontend/src/App.jsx:80-86 | the reduce puts every forecast in exactly one group: group sizes add up to the number of forecasts |
| Grouping.GroupByPeriodCorrect | frontend/src/App.jsx:80-86 | each period's group is exactly that period's forecasts in input order (absent when there are none); labels are distinct; group sizes add up to the input length |
| Analytics.CurrentAqi | frontend/src/App.jsx:77-78 | the head reading's index, 0 with no readings |
| Analytics.CurrentAqiIsNewest | frontend/src/App.jsx:77-78 | on normalised readings the current index is that of a reading no other is newer than |
| Analytics.PercentChange | frontend/src/App.jsx:93 | the percentage change times the previous index is a hundred times the difference of the two indices |
| Analytics.AqiTrend | frontend/src/App.jsx:88-94 | 0 with fewer than two readings or a previous index of 0; otherwise the percentage change rounded by `toFixed(1)`, so within 0.05 of it |
| Analytics.WeeklyTrend | frontend/src/App.jsx:123 | "Improving" with fewer than two readings, with a previous index of 0, and whenever a positive index holds steady or falls |
| Analytics.WorseningIffRise | frontend/src/App.jsx:123 | with a positive previous index, "Worsening" exactly when the index rose by at least 0.05 percent |
| Analytics.TrendExample | frontend/src/App.jsx:88-94 | indices 100 then 80 give a trend of 25.0, worsening |
| Analytics.MinAqi | frontend/src/App.jsx:108 | the smallest index is a lower bound attained by some reading |
| Analytics.MaxAqi | frontend/src/App.jsx:108 | the largest index is an upper bound attained by some reading |
| Analytics.SumAqi | frontend/src/App.jsx:108 | the sum of the indices; a definition without a contract of its own, pinned by `Analytics.SumAqiIsReduce` |
| Analytics.ReduceAqi | frontend/src/App.jsx:108 | the left-to-right `reduce` reading a falsy index as 0; a definition without a contract of its own, pinned by `Analytics.SumAqiIsReduce` |
| Analytics.SumAqiIsReduce | frontend/src/App.jsx:108 | the left-to-right `reduce`, reading a falsy index as 0, started at any accumulator adds exactly the sum of the indices, so started at 0 it is that sum |
| Analytics.SumAqiBounds | frontend/src/App.jsx:108 | the sum of indices lies between count times the lower and count times the upper bound |
| Analytics.QuotientBetween | frontend/src/App.jsx:108 | dividing such a sum by the count gives a value between the bounds |
| Analytics.Mean | frontend/src/App.jsx:108 | the quotient of a sum by a positive count is the number that the count multiplies back to the sum |
| Analytics.MeanAqi | frontend/src/App.jsx:108 | the unrounded mean times the count is the sum of the indices, and it lies between the smallest and the largest index |
| Analytics.SeqMax | frontend/src/App.jsx:109 | `Math.max(...xs)` bounds every element and equals one of them |
| Analytics.Pm25s | frontend/src/App.jsx:109 | the concentration list of readings or forecasts has one entry per record, in order, an absent field as 0 |
| Analytics.PeakPm25 | frontend/src/App.jsx:109 | the largest concentration of a non-empty list (an absent field as 0) is that of some item, and no item has a higher one |
| Analytics.SensorAnalytics | frontend/src/App.jsx:103-115 | no readings give (0, 0, 0, null); otherwise the count, the mean index rounded by `toFixed(0)` (between the smallest and largest index), the largest concentration rounded by `toFixed(1)`, and the range from the last (oldest) to the first (newest) reading |
| Analytics.DateRangeSpansReadings | frontend/src/App.jsx:110-113 | on sorted readings the date range covers every reading |
| Analytics.GroupHead | frontend/src/App.jsx:119 | `groups[period]?.[0]` is absent exactly when no group carries the label; otherwise it is the head of that label's group and a forecast of that period |
| Analytics.GroupHeadIsFirst | frontend/src/App.jsx:119 | `groups[period]?.[0]` is the first forecast of that period in input order |
| Analytics.PeriodPeakPm25 | frontend/src/App.jsx:120-122 | '--' exactly when the period has no forecasts; otherwise the largest concentration among them rounded by `toFixed(1)` |
| Analytics.PredictionAnalytics | frontend/src/App.jsx:117-126 | next6hAQI is the first "6hours" forecast's index, peak48hPM25 the largest "48hours" concentration rounded by `toFixed(1)`, modelConfidence the first "week" forecast's score (each '--' when the group is missing), and weeklyTrend is "Worsening" exactly when the trend is positive |
| Analytics.ModelConfidenceIsWeekScore | frontend/src/App.jsx:124 | on normalised forecasts the model confidence is '--' or 75 |
| Analytics.Next6hIsNewest | frontend/src/App.jsx:119 | on sorted forecasts next6hAQI belongs to the newest "6hours" forecast |
| Analytics.OfPeriodKeepsOrder | frontend/src/App.jsx:80-86 | a period group of sorted forecasts is sorted |
| Analytics.FormatDataForChart | frontend/src/App.jsx:96-101 | no data gives no rows; otherwise one row per record in order, carrying the record and its stamped instant |
| Analytics.ChartKeepsOrder | frontend/src/App.jsx:96-101 | rows of records sorted newest first are sorted newest first |
| Refresh.FetchSensorData | frontend/src/components/services/firebaseApi.js:4-22 | a failed request gives no readings, a successful one the normalised readings of its document; the result is always sorted and consistent |
| Refresh.FetchPredictions | frontend/src/components/services/firebaseApi.js:24-54 | a failed request gives no forecasts, a successful one the normalised forecasts of its document; the result is always sorted and consistent |
| Refresh.FetchMetadata | frontend/src/components/services/firebaseApi.js:56-64 | a failed request gives null, a successful one the document |
| Refresh.BeginLoad | frontend/src/App.jsx:29-35 | a manual refresh sets the refreshing indicator, an automatic one with no readings the loading indicator; the error is cleared and nothing else changes |
| Refresh.Replace | frontend/src/App.jsx:45-51 | the held sequence is replaced only when the change detector fires, and it agrees with the incoming one in length and first three records |
| Refresh.FinishLoad | frontend/src/App.jsx:37-66 | a throw sets the error message and disconnects, leaving held data alone; a settled cycle connects and stamps the clock; both turn the indicators off |
| Refresh.LoadData | frontend/src/App.jsx:28-67 | one whole cycle: each held sequence becomes the incoming one or stays as it was, and changes only when the change detector fires (so it agrees with the incoming one in length and first three records); metadata always the fetched one; connected with no error on success; on a throw, held data and last-updated time untouched, error set, disconnected; indicators off either way |
| Refresh.LoadDataKeepsWellFormed | frontend/src/App.jsx:18-67 | starting from the initial state, every cycle keeps the held data sorted and consistent |
| Refresh.FailedSensorFetchClearsReadings | frontend/src/components/services/firebaseApi.js:18-21 | a failed sensor request replaces non-empty held readings with none and still reports the connection up |
| Refresh.MetadataFailureIsolated | frontend/src/App.jsx:53-55 | the metadata request's outcome does not affect the readings and forecasts kept |
| StatusCard.Severity | frontend/src/components/dashboard/AQIStatusCard.jsx:7-14 | the six levels sit at severities 0 to 5 |
| StatusCard.GetAqiStatus | frontend/src/components/dashboard/AQIStatusCard.jsx:7-14 | inclusive upper thresholds 50/100/150/200/300 decide the level: severity at most k exactly when the index is at most the k-th threshold |
| StatusCard.SeverityMonotone | frontend/src/components/dashboard/AQIStatusCard.jsx:7-13 | a higher index never gives a less severe level |
| StatusCard.BandGivesLevel | frontend/src/components/dashboard/AQIStatusCard.jsx:7-13 | composed with the calculator, concentration band k gives severity k; up to 12.0 is Good and above 250.4 Hazardous |
| StatusCard.ProgressWidth | frontend/src/components/dashboard/AQIStatusCard.jsx:60 | the bar width is aqi/300×100 capped at 100, and exactly 100 from 300 on |
| StatusCard.ProgressWidthMonotone | frontend/src/components/dashboard/AQIStatusCard.jsx:60 | the bar never shrinks as the index grows |
| StatusCard.TrendDisplay | frontend/src/components/dashboard/AQIStatusCard.jsx:47-50 | no trend line for a zero trend (React then renders a bare "0" in its place); otherwise a rising arrow exactly for a positive trend, showing its absolute value |
| StatusCard.AqiText | frontend/src/components/dashboard/AQIStatusCard.jsx:39 | an index of 0 shows '--', any other index itself |
| StatusCard.ArrowAgreesWithWeeklyTrend | frontend/src/components/dashboard/AQIStatusCard.jsx:47-50 | the card's rising arrow appears exactly when the weekly trend reads "Worsening" |
| PredictionCard.ConfidenceColor | frontend/src/components/dashboard/PredictionCard.jsx:8-12 | green exactly from 80, yellow exactly from 60 below 80, red exactly below 60 |
| PredictionCard.FormatPeriod | frontend/src/components/dashboard/PredictionCard.jsx:14-22 | the four known labels map to their display names; any other label is shown unchanged |
| PredictionCard.ConfidenceBadge | frontend/src/components/dashboard/PredictionCard.jsx:25-47 | a badge exactly for a present forecast with a non-zero score, coloured by that score; a score of 0 makes React render a bare "0", which no normalised forecast reaches since every table score lies in [65, 95] |
| PredictionCard.PredictedAqiText | frontend/src/components/dashboard/PredictionCard.jsx:56 | '--' exactly when there is no forecast, the predicted index otherwise |
| PredictionCard.ConfidenceNeverRed | frontend/src/components/dashboard/PredictionCard.jsx:8-12 | no table score is red; green exactly for "6hours", "hour", "day" and "48hours" |
| PredictionCard.NormalisedForecastBadge | frontend/src/components/dashboard/PredictionCard.jsx:43-47 | a normalised forecast always shows its badge, never in red |
| DataSourceInfo.ToUpper | frontend/src/components/dashboard/DataSourceInfo.jsx:32 | on the ASCII word characters the `\w` match hands it, `toUpperCase` turns lower-case letters into capitals (code point minus 32) and keeps the rest |
| DataSourceInfo.ReplaceUnderscores | frontend/src/components/dashboard/DataSourceInfo.jsx:32 | every underscore becomes a space and nothing else changes |
| DataSourceInfo.CapitalizeFrom | frontend/src/components/dashboard/DataSourceInfo.jsx:32 | the scan upper-cases exactly the characters at a word start |
| DataSourceInfo.FormatSourceLabel | frontend/src/components/dashboard/DataSourceInfo.jsx:32 | the label has the identifier's length and no underscore; after underscores become spaces, a character is upper-cased exactly at a word start and kept elsewhere |
| DataSourceInfo.FormatSourceLabelIdempotent | frontend/src/components/dashboard/DataSourceInfo.jsx:32 | formatting a label twice equals formatting it once |
| DataSourceInfo.SourceBadges | frontend/src/components/dashboard/DataSourceInfo.jsx:25-34 | one badge per source, in list order |
| DataSourceInfo.RenderDataSources | frontend/src/components/dashboard/DataSourceInfo.jsx:8-41 | null metadata renders nothing; otherwise one badge per listed source and the last update line, which a value of 0 replaces by a bare "0" |

## Left out

- HTTP requests, `response.ok` and JSON parsing: each request's result is a `Fetched` value, a parsed document or a failure.
- `Promise.all`, the 60-second polling interval, overlapping refreshes and React memoisation: these are scheduling and framework plumbing. One cycle is one call of `Refresh.LoadData`.
- Clocks and dates: `new Date()` is the `now` parameter. Timestamps are integers, so date parsing, invalid dates and `toLocale*String` formatting are not modelled.
- Floating point: concentrations are exact reals. NaN from `parseFloat` on non-numeric strings is not modelled, nor are IEEE-754 rounding effects inside `toFixed`. `toFixed` results are kept as numbers, not strings.
- `JSON.stringify` comparison of records and metadata is modelled as structural equality on the modelled fields. Serialisation also depends on field order, which follows the raw document's order through the `...values` spread, so two records with the same fields in a different order compare as changed in the dashboard but equal in the model.
- Raw fields outside the six measurements: the spread copies every field of a raw entry into its record, and `JSON.stringify` compares them. Records keep only temperature, humidity, PM2.5, CO2, VOCs and NOx, so a change confined to another field goes unnoticed in the model.
- JavaScript object quirks: prototype keys such as "constructor" in the confidence table lookup, and raw value fields named `timestamp` or `prediction_period` that would override the key through the spread. Records have explicit fields.
- Object keys are taken as given: the raw documents are sequences of key/value pairs, and key uniqueness is a precondition only where a lemma needs it (`Normalizer.SensorStrictlyDescending`).
- `formatDataForChart`'s `item[timestampKey] || item.prediction_timestamp` is the `stamp` function parameter.
- Tabs, JSX layout, motion, and the presentation-only components SensorChart, LiveStatusBadge, LoadingSpinner and MetricsGrid.
- `InitialState` carries no contract of its own: it is the literal initial state. `Refresh.LoadDataKeepsWellFormed` states its well-formedness.

=== FILE: analytics.dfy ===
/** The analytics the dashboard derives from the held readings and forecasts: the current
    index, the trend between the two newest readings, the sensor summary, the forecast
    summary, and the rows handed to the charts. */
module Analytics {
  import opened Wrappers
  import opened Rounding
  import opened Records
  import opened Sorting
  import opened Grouping
  import opened Normalizer

  /** `currentAQI`: the newest reading's index, 0 when there is no reading. */
  function CurrentAqi(sensor: seq<SensorReading>): (aqi: int)
    ensures sensor == [] ==> aqi == 0
    ensures sensor != [] ==> aqi == sensor[0].aqiCalculated
  {
    if sensor == [] then 0 else sensor[0].aqiCalculated
  }

  /** On normalised readings the current index is the index of the PM2.5 field of a
      reading no other reading is newer than. */
  lemma CurrentAqiIsNewest(sensor: seq<SensorReading>)
    requires sensor != [] && SortedDesc(sensor, ReadingTime)
    requires forall r | r in sensor :: ConsistentReading(r)
    ensures exists r | r in sensor ::
      && CurrentAqi(sensor) == Aqi.CalculateAqi(r.values)
      && forall q | q in sensor :: q.timestamp <= r.timestamp
  {
    var r := sensor[0];
    assert r in sensor && ConsistentReading(r);
    forall q | q in sensor ensures q.timestamp <= r.timestamp {
      var j :| 0 <= j < |sensor| && sensor[j] == q;
      if j > 0 { assert ReadingTime(sensor[0]) >= ReadingTime(sensor[j]); }
    }
  }

  /** Percentage change from `previous` to `current`. */
  function PercentChange(current: int, previous: int): (p: real)
    requires previous != 0
    ensures p * previous as real == (current - previous) as real * 100.0
  {
    (current - previous) as real / previous as real * 100.0
  }

  /** `getAQITrend`: the percentage change between the two newest readings' indices, to
      one decimal place; 0 with fewer than two readings or a previous index of 0. */
  function AqiTrend(sensor: seq<SensorReading>): (t: real)
    ensures |sensor| < 2 ==> t == 0.0
    ensures |sensor| >= 2 && sensor[1].aqiCalculated == 0 ==> t == 0.0
    ensures |sensor| >= 2 && sensor[1].aqiCalculated != 0 ==>
      var x := PercentChange(sensor[0].aqiCalculated, sensor[1].aqiCalculated);
      x - 0.05 <= t <= x + 0.05
    ensures |sensor| >= 2 && sensor[1].aqiCalculated != 0 ==>
      t == ToFixed1(PercentChange(sensor[0].aqiCalculated, sensor[1].aqiCalculated))
  {
    if |sensor| < 2 then 0.0
    else
      var current := sensor[0].aqiCalculated;
      var previous := sensor[1].aqiCalculated;
      if previous == 0 then 0.0 else ToFixed1(PercentChange(current, previous))
  }

  /** The qualitative direction shown as the weekly trend. */
  datatype Direction = Improving | Worsening

  /** `weeklyTrend`: worsening when the rounded trend is positive, improving otherwise.
      Fewer than two readings, a previous index of 0, and a steady or falling positive
      index all read as improving. */
  function WeeklyTrend(sensor: seq<SensorReading>): (d: Direction)
    ensures |sensor| < 2 ==> d == Improving
    ensures |sensor| >= 2 && sensor[1].aqiCalculated == 0 ==> d == Improving
    ensures |sensor| >= 2 && 0 < sensor[1].aqiCalculated && sensor[0].aqiCalculated <= sensor[1].aqiCalculated ==>
      d == Improving
  {
    if AqiTrend(sensor) > 0.0 then Worsening else Improving
  }

  /** With a positive previous index, the trend reads worsening exactly when the index rose
      by at least 0.05 percent (smaller rises round to 0.0 and read as improving). */
  lemma {:induction false} WorseningIffRise(sensor: seq<SensorReading>)
    requires |sensor| >= 2 && sensor[1].aqiCalculated > 0
    ensures WeeklyTrend(sensor) == Worsening <==>
      (sensor[0].aqiCalculated - sensor[1].aqiCalculated) * 2000 >= sensor[1].aqiCalculated
  {
    var d := (sensor[0].aqiCalculated - sensor[1].aqiCalculated) as real;
    var p := sensor[1].aqiCalculated as real;
    var x := PercentChange(sensor[0].aqiCalculated, sensor[1].aqiCalculated);
    assert x == d / p * 100.0;
    assert x * p == d * 100.0;
    assert 0.05 <= x <==> d * 2000.0 >= p by {
      if 0.05 <= x {
        assert x * p >= 0.05 * p;
      } else {
        assert x * p < 0.05 * p;
      }
    }
  }

  /** Two readings with indices 100 (newest) and 80 give a trend of 25.0, worsening. */
  lemma TrendExample(a: SensorReading, b: SensorReading)
    requires a.aqiCalculated == 100 && b.aqiCalculated == 80
    ensures AqiTrend([a, b]) == 25.0
    ensures WeeklyTrend([a, b]) == Worsening
  {
    assert PercentChange(100, 80) == 25.0;
  }

  /** Sum of the readings' indices. */
  function SumAqi(sensor: seq<SensorReading>): int {
    if sensor == [] then 0 else sensor[0].aqiCalculated + SumAqi(sensor[1..])
  }

  /** `reduce((acc, item) => acc + (item.aqi_calculated || 0), acc)`: the left-to-right
      fold; an index is always present, and `|| 0` turns only a 0 into 0. */
  function ReduceAqi(acc: int, sensor: seq<SensorReading>): int
    decreases sensor
  {
    if sensor == [] then acc
    else
      var item := sensor[0].aqiCalculated;
      ReduceAqi(acc + (if item != 0 then item else 0), sensor[1..])
  }

  /** The fold started at `acc` adds the sum of the indices to `acc`; started at 0 it is
      the sum. */
  lemma {:induction false} SumAqiIsReduce(acc: int, sensor: seq<SensorReading>)
    ensures ReduceAqi(acc, sensor) == acc + SumAqi(sensor)
    decreases sensor
  {
    if sensor != [] {
      SumAqiIsReduce(acc + sensor[0].aqiCalculated, sensor[1..]);
    }
  }

  /** Smallest index among the readings. */
  function MinAqi(sensor: seq<SensorReading>): (m: int)
    requires sensor != []
    ensures forall r | r in sensor :: m <= r.aqiCalculated
    ensures exists r | r in sensor :: m == r.aqiCalculated
  {
    if |sensor| == 1 then sensor[0].aqiCalculated
    else
      var rest := MinAqi(sensor[1..]);
      assert forall r | r in sensor :: r == sensor[0] || r in sensor[1..];
      if sensor[0].aqiCalculated <= rest then sensor[0].aqiCalculated else rest
  }

  /** Largest index among the readings. */
  function MaxAqi(sensor: seq<SensorReading>): (m: int)
    requires sensor != []
    ensures forall r | r in sensor :: r.aqiCalculated <= m
    ensures exists r | r in sensor :: m == r.aqiCalculated
  {
    if |sensor| == 1 then sensor[0].aqiCalculated
    else
      var rest := MaxAqi(sensor[1..]);
      assert forall r | r in sensor :: r == sensor[0] || r in sensor[1..];
      if sensor[0].aqiCalculated >= rest then sensor[0].aqiCalculated else rest
  }

  /** The sum lies between count times the smallest and count times the largest bound. */
  lemma {:induction false} SumAqiBounds(sensor: seq<SensorReading>, lo: int, hi: int)
    requires forall r | r in sensor :: lo <= r.aqiCalculated <= hi
    ensures lo * |sensor| <= SumAqi(sensor) <= hi * |sensor|
  {
    if sensor != [] {
      assert sensor[0] in sensor;
      SumAqiBounds(sensor[1..], lo, hi);
      assert lo * |sensor| == lo + lo * |sensor[1..]|;
      assert hi * |sensor| == hi + hi * |sensor[1..]|;
    }
  }

  /** The quotient of a sum by a positive count: the number that, taken `n` times,
      gives the sum. */
  function Mean(sum: int, n: int): (q: real)
    requires 0 < n
    ensures q * n as real == sum as real
  {
    sum as real / n as real
  }

  /** A sum between `n` times two bounds, divided by `n`, lies between the bounds. */
  lemma QuotientBetween(sum: int, n: int, lo: int, hi: int)
    requires 0 < n && lo * n <= sum <= hi * n
    ensures lo as real <= Mean(sum, n) <= hi as real
  {
    var q := Mean(sum, n);
    assert (lo * n) as real == lo as real * n as real;
    assert (hi * n) as real == hi as real * n as real;
    CancelPositive(lo as real, q, n as real);
    CancelPositive(q, hi as real, n as real);
  }

  /** A positive factor can be cancelled from both sides of an inequality. */
  lemma CancelPositive(a: real, b: real, n: real)
    requires 0.0 < n && a * n <= b * n
    ensures a <= b
  {
    assert (b - a) * n == b * n - a * n;
  }

  /** The unrounded mean index: the mean of the indices, between the smallest and the
      largest of them. */
  function MeanAqi(sensor: seq<SensorReading>): (m: real)
    requires sensor != []
    ensures m == Mean(SumAqi(sensor), |sensor|)
    ensures MinAqi(sensor) as real <= m <= MaxAqi(sensor) as real
  {
    SumAqiBounds(sensor, MinAqi(sensor), MaxAqi(sensor));
    QuotientBetween(SumAqi(sensor), |sensor|, MinAqi(sensor), MaxAqi(sensor));
    Mean(SumAqi(sensor), |sensor|)
  }

  /** Largest of a non-empty list of concentrations (`Math.max(...xs)`). */
  function SeqMax(xs: seq<real>): (m: real)
    requires xs != []
    ensures forall i | 0 <= i < |xs| :: xs[i] <= m
    ensures exists i | 0 <= i < |xs| :: xs[i] == m
  {
    if |xs| == 1 then xs[0]
    else
      var rest := SeqMax(xs[1..]);
      assert forall i | 1 <= i < |xs| :: xs[i] == xs[1..][i - 1];
      if xs[0] >= rest then xs[0] else rest
  }

  /** `Math.max(...items.map(item => item.PM2_5 || 0))` over a non-empty list: the
      concentration of some item, and no item's is higher. */
  function PeakPm25<R>(items: seq<R>, values: R -> Values): (m: real)
    requires items != []
    ensures forall x | x in items :: Pm25OrZero(values(x)) <= m
    ensures exists x | x in items :: Pm25OrZero(values(x)) == m
  {
    var xs := Pm25s(items, values);
    var m := SeqMax(xs);
    assert forall x | x in items :: Pm25OrZero(values(x)) <= m by {
      forall x | x in items ensures Pm25OrZero(values(x)) <= m {
        var i :| 0 <= i < |items| && items[i] == x;
        assert xs[i] == Pm25OrZero(values(x));
      }
    }
    var i :| 0 <= i < |xs| && xs[i] == m;
    assert items[i] in items && Pm25OrZero(values(items[i])) == m;
    m
  }

  /** `items.map(item => item.PM2_5 || 0)` over readings or forecasts, `values` reading
      each record's measurement fields. */
  function Pm25s<R>(items: seq<R>, values: R -> Values): (xs: seq<real>)
    ensures |xs| == |items|
    ensures forall i | 0 <= i < |items| :: xs[i] == Pm25OrZero(values(items[i]))
  {
    if items == [] then [] else [Pm25OrZero(values(items[0]))] + Pm25s(items[1..], values)
  }

  function ReadingValues(r: SensorReading): Values { r.values }

  function PredictionValues(p: PredictionRecord): Values { p.values }

  /** The inclusive span of the readings' instants: oldest and newest. */
  datatype DateRange = DateRange(start: int, end: int)

  /** The sensor summary; `avgAqi` is the mean index as `toFixed(0)` prints it and
      `peakPm25` the largest concentration as `toFixed(1)` prints it. */
  datatype SensorSummary = SensorSummary(
    totalRecords: nat,
    avgAqi: int,
    peakPm25: real,
    dateRange: Option<DateRange>)

  /** `sensorAnalytics`: all zero and no date range without readings; otherwise the
      count, the mean index rounded by `toFixed(0)` (so between the smallest and largest
      index), the largest concentration rounded by `toFixed(1)`, and the range from the
      last (oldest) reading to the first (newest). */
  function SensorAnalytics(sensor: seq<SensorReading>): (a: SensorSummary)
    ensures sensor == [] ==> a == SensorSummary(0, 0, 0.0, None)
    ensures sensor != [] ==> a.totalRecords == |sensor|
    ensures sensor != [] ==> MinAqi(sensor) <= a.avgAqi <= MaxAqi(sensor)
    ensures sensor != [] ==> a.avgAqi == ToFixed0(MeanAqi(sensor))
    ensures sensor != [] ==> MeanAqi(sensor) - 0.5 <= a.avgAqi as real <= MeanAqi(sensor) + 0.5
    ensures sensor != [] ==> exists r | r in sensor ::
      && a.peakPm25 == ToFixed1(Pm25OrZero(r.values))
      && forall q | q in sensor :: Pm25OrZero(q.values) <= Pm25OrZero(r.values)
    ensures sensor != [] ==>
      && (forall r | r in sensor :: Pm25OrZero(r.values) <= a.peakPm25 + 0.05)
      && (exists r | r in sensor :: Pm25OrZero(r.values) - 0.05 <= a.peakPm25 <= Pm25OrZero(r.values) + 0.05)
    ensures sensor != [] ==> a.dateRange == Some(DateRange(sensor[|sensor| - 1].timestamp, sensor[0].timestamp))
  {
    if sensor == [] then SensorSummary(0, 0, 0.0, None)
    else
      var mean := MeanAqi(sensor);
      ToFixed0Between(mean, MinAqi(sensor), MaxAqi(sensor));
      var peak := PeakPm25(sensor, ReadingValues);
      SensorSummary(
        |sensor|,
        ToFixed0(mean),
        ToFixed1(peak),
        Some(DateRange(sensor[|sensor| - 1].timestamp, sensor[0].timestamp)))
  }

  /** On readings sorted newest first, the date range covers every reading. */
  lemma DateRangeSpansReadings(sensor: seq<SensorReading>)
    requires sensor != [] && SortedDesc(sensor, ReadingTime)
    ensures var range := SensorAnalytics(sensor).dateRange.value;
      && range.start <= range.end
      && forall r | r in sensor :: range.start <= r.timestamp <= range.end
  {
    var n := |sensor|;
    forall r | r in sensor ensures sensor[n - 1].timestamp <= r.timestamp <= sensor[0].timestamp {
      var j :| 0 <= j < n && sensor[j] == r;
      if 0 < j { assert ReadingTime(sensor[0]) >= ReadingTime(sensor[j]); }
      if j < n - 1 { assert ReadingTime(sensor[j]) >= ReadingTime(sensor[n - 1]); }
    }
    assert sensor[0] in sensor;
  }

  /** The forecast summary; `None` is the '--' placeholder. */
  datatype ModelSummary = ModelSummary(
    next6hAqi: Option<int>,
    peak48hPm25: Option<real>,
    weeklyTrend: Direction,
    modelConfidence: Option<int>)

  /** The first record of a group, `groups[period]?.[0]`: absent exactly when no group has
      the label (groups are never empty), otherwise the head of that label's group, a
      record of that period. */
  function GroupHead(groups: Groups, period: string): (g: Option<PredictionRecord>)
    ensures GroupsLabelled(groups) ==> (g.None? <==> forall k | 0 <= k < |groups| :: groups[k].0 != period)
    ensures g.Some? ==> exists k | 0 <= k < |groups| ::
      groups[k].0 == period && groups[k].1 != [] && g.value == groups[k].1[0]
    ensures GroupsLabelled(groups) && g.Some? ==> g.value.period == period
  {
    match Lookup(groups, period)
    case None => None
    case Some(g) => if g == [] then None else Some(g[0])
  }

  /** `groups[period]?.[0]` on the grouping is the first forecast of that period in
      input order. */
  lemma GroupHeadIsFirst(preds: seq<PredictionRecord>, period: string)
    ensures var f := OfPeriod(preds, period);
      GroupHead(GroupByPeriod(preds), period) == if f == [] then None else Some(f[0])
  {
    GroupByPeriodCorrect(preds);
  }

  /** The peak concentration of a period's forecasts as `toFixed(1)` prints it, '--' when
      the period has none. */
  function PeriodPeakPm25(preds: seq<PredictionRecord>, period: string): (peak: Option<real>)
    ensures peak.None? <==> OfPeriod(preds, period) == []
    ensures peak.Some? ==> exists p | p in preds && p.period == period ::
      && peak.value == ToFixed1(Pm25OrZero(p.values))
      && forall q | q in preds && q.period == period :: Pm25OrZero(q.values) <= Pm25OrZero(p.values)
    ensures peak.Some? ==>
      && (forall p | p in preds && p.period == period :: Pm25OrZero(p.values) <= peak.value + 0.05)
      && (exists p | p in preds && p.period == period ::
            Pm25OrZero(p.values) - 0.05 <= peak.value <= Pm25OrZero(p.values) + 0.05)
  {
    GroupByPeriodCorrect(preds);
    match Lookup(GroupByPeriod(preds), period)
    case None => None
    case Some(g) =>
      if |g| > 0 then
        var m := PeakPm25(g, PredictionValues);
        Some(ToFixed1(m))
      else None
  }

  /** `predictionAnalytics`: the index of the first "6hours" forecast, the peak
      concentration of the "48hours" forecasts, the weekly trend of the readings and the
      confidence of the first "week" forecast, each '--' when its period has no
      forecast. */
  function PredictionAnalytics(sensor: seq<SensorReading>, preds: seq<PredictionRecord>): (a: ModelSummary)
    ensures var six := OfPeriod(preds, "6hours");
      a.next6hAqi == if six == [] then None else Some(six[0].aqiPrediction)
    ensures var week := OfPeriod(preds, "week");
      a.modelConfidence == if week == [] then None else Some(week[0].confidenceScore)
    ensures a.peak48hPm25 == PeriodPeakPm25(preds, "48hours")
    ensures a.peak48hPm25.None? <==> OfPeriod(preds, "48hours") == []
    ensures a.peak48hPm25.Some? ==>
      && (forall p | p in preds && p.period == "48hours" :: Pm25OrZero(p.values) <= a.peak48hPm25.value + 0.05)
      && (exists p | p in preds && p.period == "48hours" ::
            Pm25OrZero(p.values) - 0.05 <= a.peak48hPm25.value <= Pm25OrZero(p.values) + 0.05)
    ensures a.weeklyTrend == Worsening <==> AqiTrend(sensor) > 0.0
  {
    var groups := GroupByPeriod(preds);
    GroupHeadIsFirst(preds, "6hours");
    GroupHeadIsFirst(preds, "week");
    var head6 := GroupHead(groups, "6hours");
    var headWeek := GroupHead(groups, "week");
    ModelSummary(
      if head6.Some? then Some(head6.value.aqiPrediction) else None,
      PeriodPeakPm25(preds, "48hours"),
      WeeklyTrend(sensor),
      if headWeek.Some? then Some(headWeek.value.confidenceScore) else None)
  }

  /** Forecasts straight from the normaliser report a model confidence of 75 whenever
      they report one: every "week" record carries the week's table score. */
  lemma ModelConfidenceIsWeekScore(sensor: seq<SensorReading>, preds: seq<PredictionRecord>)
    requires forall p | p in preds :: ConsistentPrediction(p)
    ensures PredictionAnalytics(sensor, preds).modelConfidence in {None, Some(75)}
  {
    var week := OfPeriod(preds, "week");
    if week != [] {
      assert week[0] in week;
    }
  }

  /** On forecasts sorted newest first, the next-6-hours index belongs to a "6hours"
      forecast no other "6hours" forecast is newer than. */
  lemma Next6hIsNewest(sensor: seq<SensorReading>, preds: seq<PredictionRecord>)
    requires SortedDesc(preds, PredictionTime)
    requires PredictionAnalytics(sensor, preds).next6hAqi.Some?
    ensures exists p | p in preds && p.period == "6hours" ::
      && PredictionAnalytics(sensor, preds).next6hAqi == Some(p.aqiPrediction)
      && forall q | q in preds && q.period == "6hours" :: q.timestamp <= p.timestamp
  {
    var six := OfPeriod(preds, "6hours");
    OfPeriodKeepsOrder(preds, "6hours");
    var p := six[0];
    assert p in six;
    forall q | q in preds && q.period == "6hours" ensures q.timestamp <= p.timestamp {
      var j :| 0 <= j < |six| && six[j] == q;
      if j > 0 { assert PredictionTime(six[0]) >= PredictionTime(six[j]); }
    }
  }

  /** Filtering a sorted sequence keeps it sorted. */
  lemma {:induction false} OfPeriodKeepsOrder(preds: seq<PredictionRecord>, period: string)
    requires SortedDesc(preds, PredictionTime)
    ensures SortedDesc(OfPeriod(preds, period), PredictionTime)
  {
    if preds != [] {
      var init, last := preds[..|preds| - 1], preds[|preds| - 1];
      assert SortedDesc(init, PredictionTime);
      OfPeriodKeepsOrder(init, period);
      var f := OfPeriod(init, period);
      var r := OfPeriod(preds, period);
      if last.period == period {
        forall i, j | 0 <= i < j < |r| ensures PredictionTime(r[i]) >= PredictionTime(r[j]) {
          if j == |r| - 1 {
            assert r[i] in init by { assert r[i] == f[i]; }
            var k :| 0 <= k < |init| && init[k] == r[i];
            assert preds[k] == r[i];
          } else {
            assert r[i] == f[i] && r[j] == f[j];
          }
        }
      } else {
        assert r == f + [];
      }
    }
  }

  /** A chart row: the record spread out with its instant under `timestamp`. */
  datatype ChartPoint<R> = ChartPoint(timestamp: int, item: R)

  /** `formatDataForChart(data, timestampKey)`: one row per record in record order, each
      stamped with the instant `stamp` reads; no data gives no rows. */
  function FormatDataForChart<R>(data: Option<seq<R>>, stamp: R -> int): (rows: seq<ChartPoint<R>>)
    ensures data.None? ==> rows == []
    ensures data.Some? ==> |rows| == |data.value|
    ensures data.Some? ==> forall i | 0 <= i < |rows| :: rows[i].item == data.value[i]
    ensures data.Some? ==> forall i | 0 <= i < |rows| :: rows[i].timestamp == stamp(data.value[i])
  {
    match data
    case None => []
    case Some(items) => seq(|items|, i requires 0 <= i < |items| => ChartPoint(stamp(items[i]), items[i]))
  }

  function RowTime<R>(row: ChartPoint<R>): int { row.timestamp }

  /** Charting records sorted newest first by the stamped instant gives rows sorted
      newest first. */
  lemma ChartKeepsOrder<R>(items: seq<R>, stamp: R -> int)
    requires SortedDesc(items, stamp)
    ensures SortedDesc(FormatDataForChart(Some(items), stamp), RowTime)
  {
    var rows := FormatDataForChart(Some(items), stamp);
    forall i, j | 0 <= i < j < |rows| ensures RowTime(rows[i]) >= RowTime(rows[j]) {
      assert rows[i].timestamp == stamp(items[i]);
    }
  }
}

=== FILE: aqi.dfy ===
/** The air-quality index calculator: a PM2.5 concentration mapped to an integer index by
    six breakpoint segments with linear interpolation, after the United States EPA table
    (40 CFR Part 58, Appendix G) in the simplified form the dashboard uses: the first
    segment starts at 0, the concentration is not truncated to 0.1, and the last slope
    continues without an upper band. */
module Aqi {
  import opened Rounding
  import opened Records
  import opened Wrappers

  /** The segment a concentration falls in, 0 to 5, by the calculator's upper bounds. */
  function Band(c: real): (k: nat)
    ensures k <= 5
  {
    if c <= 12.0 then 0
    else if c <= 35.4 then 1
    else if c <= 55.4 then 2
    else if c <= 150.4 then 3
    else if c <= 250.4 then 4
    else 5
  }

  /** Lowest index of each band: 0, 51, 101, 151, 201, 301. */
  function BandLow(k: nat): int
    requires k <= 5
  {
    [0, 51, 101, 151, 201, 301][k]
  }

  /** Highest index of bands 0 to 4: 50, 100, 150, 200, 300; band 5 is unbounded. */
  function BandHigh(k: nat): int
    requires k < 5
  {
    [50, 100, 150, 200, 300][k]
  }

  /** The index of a PM2.5 concentration. Each concentration band lands in its index band,
      and a non-negative concentration never gives a negative index. */
  function AqiOf(c: real): (aqi: int)
    ensures 0.0 <= c ==> 0 <= aqi
    ensures c <= 12.0 ==> aqi <= 50
    ensures 12.0 < c <= 35.4 ==> 51 <= aqi <= 100
    ensures 35.4 < c <= 55.4 ==> 101 <= aqi <= 150
    ensures 55.4 < c <= 150.4 ==> 151 <= aqi <= 200
    ensures 150.4 < c <= 250.4 ==> 201 <= aqi <= 300
    ensures 250.4 < c ==> 301 <= aqi
  {
    if c <= 12.0 then Round(c * 50.0 / 12.0)
    else if c <= 35.4 then Round(51.0 + (c - 12.1) * 49.0 / 23.3)
    else if c <= 55.4 then Round(101.0 + (c - 35.5) * 49.0 / 19.9)
    else if c <= 150.4 then Round(151.0 + (c - 55.5) * 49.0 / 94.9)
    else if c <= 250.4 then Round(201.0 + (c - 150.5) * 99.0 / 99.9)
    else Round(301.0 + (c - 250.5) * 99.0 / 99.9)
  }

  /** `calculateAQI(values)`: the index of the record's PM2.5 field, 0 when it is absent
      or 0. */
  function CalculateAqi(v: Values): (aqi: int)
    ensures v.pm25.None? || v.pm25 == Some(0.0) ==> aqi == 0
    ensures 0.0 <= Pm25OrZero(v) ==> 0 <= aqi
  {
    AqiOf(Pm25OrZero(v))
  }

  /** The band statement in one line: a concentration of band k has an index inside the
      k-th index range. */
  lemma AqiInBand(c: real)
    requires 0.0 <= c
    ensures BandLow(Band(c)) <= AqiOf(c)
    ensures Band(c) < 5 ==> AqiOf(c) <= BandHigh(Band(c))
  {
  }

  /** A higher concentration never gives a lower index, across segment boundaries too. */
  lemma AqiMonotone(c1: real, c2: real)
    requires c1 <= c2
    ensures AqiOf(c1) <= AqiOf(c2)
  {
    if Band(c1) == Band(c2) {
      if c1 <= 12.0 {
        RoundMonotone(c1 * 50.0 / 12.0, c2 * 50.0 / 12.0);
      } else if c1 <= 35.4 {
        RoundMonotone(51.0 + (c1 - 12.1) * 49.0 / 23.3, 51.0 + (c2 - 12.1) * 49.0 / 23.3);
      } else if c1 <= 55.4 {
        RoundMonotone(101.0 + (c1 - 35.5) * 49.0 / 19.9, 101.0 + (c2 - 35.5) * 49.0 / 19.9);
      } else if c1 <= 150.4 {
        RoundMonotone(151.0 + (c1 - 55.5) * 49.0 / 94.9, 151.0 + (c2 - 55.5) * 49.0 / 94.9);
      } else if c1 <= 250.4 {
        RoundMonotone(201.0 + (c1 - 150.5) * 99.0 / 99.9, 201.0 + (c2 - 150.5) * 99.0 / 99.9);
      } else {
        RoundMonotone(301.0 + (c1 - 250.5) * 99.0 / 99.9, 301.0 + (c2 - 250.5) * 99.0 / 99.9);
      }
    }
  }

  /** PM2.5 of 10 gives index 42, and 5 gives 21. */
  lemma WorkedExamples()
    ensures AqiOf(10.0) == 42
    ensures AqiOf(5.0) == 21
  {
  }
}

=== FILE: change_detector.dfy ===
/** The change detector that gates replacing held data by freshly fetched data. It looks
    at the lengths and the first three elements only: a deliberate approximation of
    sequence equality, sufficient when new data arrives at the head of a sequence sorted
    newest first. */
module ChangeDetector {
  import opened Wrappers

  /** `Math.min(3, n)`: how many leading elements are compared. */
  function HeadCount(n: nat): (k: nat)
    ensures k <= n && k <= 3
    ensures n <= 3 ==> k == n
    ensures 3 <= n ==> k == 3
  {
    if n < 3 then n else 3
  }

  /** `hasDataChanged(newData, oldData)` stated declaratively: the old sequence is absent,
      the lengths differ, or one of the compared head elements differs. Equal sequences
      never count as changed. */
  predicate HasDataChanged<T(==)>(newData: seq<T>, oldData: Option<seq<T>>): (changed: bool)
    ensures oldData.None? ==> changed
    ensures oldData.Some? && |oldData.value| != |newData| ==> changed
    ensures oldData == Some(newData) ==> !changed
  {
    || oldData.None?
    || |oldData.value| != |newData|
    || exists i | 0 <= i < HeadCount(|newData|) :: newData[i] != oldData.value[i]
  }

  /** The loop of `hasDataChanged`, comparing element by element and returning early on
      the first difference; it decides exactly the declarative predicate. */
  method HasDataChangedLoop<T(==)>(newData: seq<T>, oldData: Option<seq<T>>) returns (changed: bool)
    ensures changed <==> HasDataChanged(newData, oldData)
  {
    if oldData.None? || |oldData.value| != |newData| {
      return true;
    }
    var held := oldData.value;
    var i := 0;
    while i < HeadCount(|newData|)
      invariant 0 <= i <= HeadCount(|newData|)
      invariant forall j | 0 <= j < i :: newData[j] == held[j]
    {
      if newData[i] != held[i] {
        return true;
      }
      i := i + 1;
    }
    return false;
  }

  /** The accepted approximation: when lengths and the first three elements agree, a
      difference further down goes unnoticed. */
  lemma MissesChangeBeyondHead<T>(newData: seq<T>, oldData: seq<T>)
    requires |newData| == |oldData|
    requires newData[..HeadCount(|newData|)] == oldData[..HeadCount(|oldData|)]
    ensures !HasDataChanged(newData, Some(oldData))
  {
    forall i | 0 <= i < HeadCount(|newData|)
      ensures newData[i] == oldData[i]
    {
      assert newData[i] == newData[..HeadCount(|newData|)][i];
    }
  }

  /** A concrete instance: the fourth element differs, yet no change is reported. */
  lemma MissesFourthElement()
    ensures [1, 2, 3, 4] != [1, 2, 3, 5]
    ensures !HasDataChanged([1, 2, 3, 4], Some([1, 2, 3, 5]))
  {
    MissesChangeBeyondHead([1, 2, 3, 4], [1, 2, 3, 5]);
  }

  /** A different element at the head of equally long sequences is reported. */
  lemma DetectsHeadChange<T>(newData: seq<T>, oldData: seq<T>, i: nat)
    requires |newData| == |oldData| && i < HeadCount(|newData|)
    requires newData[i] != oldData[i]
    ensures HasDataChanged(newData, Some(oldData))
  {
  }

  /** A newly arrived reading prepended to the held data is reported (the length grows). */
  lemma DetectsPrepended<T>(x: T, held: seq<T>)
    ensures HasDataChanged([x] + held, Some(held))
  {
  }
}

=== FILE: confidence.dfy ===
/** The confidence estimator: a fixed table from forecast period label to a percentage.
    The table is static by design and is not derived from forecast accuracy. */
module Confidence {

  /** The labels the table knows and their scores. */
  const ConfidenceTable: map<string, int> := map[
    "6hours" := 92,
    "hour" := 95,
    "day" := 88,
    "48hours" := 82,
    "week" := 75,
    "month" := 65,
    "15days" := 68
  ]

  /** Score of any label the table does not know. */
  const DefaultConfidence := 70

  /** `calculateConfidence(period)`: the table's score, or the default when the lookup
      is missing (or falsy, which no score in the table is). */
  function CalculateConfidence(period: string): (score: int)
    ensures period == "6hours" ==> score == 92
    ensures period == "hour" ==> score == 95
    ensures period == "day" ==> score == 88
    ensures period == "48hours" ==> score == 82
    ensures period == "week" ==> score == 75
    ensures period == "month" ==> score == 65
    ensures period == "15days" ==> score == 68
    ensures period !in ConfidenceTable ==> score == DefaultConfidence
    ensures 65 <= score <= 95
  {
    if period in ConfidenceTable && ConfidenceTable[period] != 0
    then ConfidenceTable[period]
    else DefaultConfidence
  }

  /** The default is reached exactly by the labels outside the table: no known label
      scores 70. */
  lemma DefaultOnlyForUnknown(period: string)
    ensures CalculateConfidence(period) == DefaultConfidence <==> period !in ConfidenceTable
  {
  }
}

=== FILE: data_source_info.dfy ===
/** The data-source panel: nothing for null metadata, otherwise one badge per source
    identifier with underscores turned into spaces and every word capitalised. */
module DataSourceInfo {
  import opened Wrappers
  import opened Records

  /** A character the regular expression class `\w` matches: ASCII letter, digit or
      underscore. */
  predicate IsWordChar(c: char) {
    ('a' <= c <= 'z') || ('A' <= c <= 'Z') || ('0' <= c <= '9') || c == '_'
  }

  /** `toUpperCase` on a word character: lower-case ASCII letters become upper-case, the
      rest stay as they are. */
  function ToUpper(c: char): (u: char)
    ensures IsWordChar(u) <==> IsWordChar(c)
    ensures !('a' <= u <= 'z')
    ensures u == '_' <==> c == '_'
    ensures 'a' <= c <= 'z' ==> 'A' <= u <= 'Z' && u as int == c as int - 32
    ensures !('a' <= c <= 'z') ==> u == c
  {
    if 'a' <= c <= 'z' then (c as int - 32) as char else c
  }

  /** Position `i` starts a word: a word character at the string start or after a
      character that is not one (`\b\w`). */
  predicate WordStart(s: string, i: int)
    requires 0 <= i < |s|
  {
    WordStartAfter(s, i, false)
  }

  /** `WordStart` for a suffix of a string: `afterWord` tells whether the character
      before the suffix is a word character. */
  predicate WordStartAfter(s: string, i: int, afterWord: bool)
    requires 0 <= i < |s|
  {
    IsWordChar(s[i]) && (if i == 0 then !afterWord else !IsWordChar(s[i - 1]))
  }

  /** `replace(/_/g, ' ')`: every underscore becomes a space. */
  function ReplaceUnderscores(s: string): (r: string)
    ensures |r| == |s|
    ensures forall i | 0 <= i < |s| :: r[i] == if s[i] == '_' then ' ' else s[i]
  {
    if s == [] then [] else [if s[0] == '_' then ' ' else s[0]] + ReplaceUnderscores(s[1..])
  }

  /** The left-to-right scan of `replace(/\b\w/g, upper)`: `afterWord` tells whether the
      character before `s` is a word character. */
  function CapitalizeFrom(s: string, afterWord: bool): (r: string)
    ensures |r| == |s|
    ensures forall i | 0 <= i < |s| :: r[i] == if WordStartAfter(s, i, afterWord) then ToUpper(s[i]) else s[i]
  {
    if s == [] then []
    else
      var first := if IsWordChar(s[0]) && !afterWord then ToUpper(s[0]) else s[0];
      var rest := CapitalizeFrom(s[1..], IsWordChar(s[0]));
      var r := [first] + rest;
      forall i | 0 <= i < |s|
        ensures r[i] == if WordStartAfter(s, i, afterWord) then ToUpper(s[i]) else s[i]
      {
        if i > 0 {
          assert r[i] == rest[i - 1] && s[1..][i - 1] == s[i];
          if i > 1 {
            assert s[1..][i - 2] == s[i - 1];
          }
        }
      }
      r
  }

  /** The badge label of a source identifier. It has the identifier's length and no
      underscore; after underscores become spaces, a character is upper-cased exactly
      where a word starts and kept everywhere else. */
  function FormatSourceLabel(source: string): (text: string)
    ensures |text| == |source|
    ensures forall i | 0 <= i < |text| :: text[i] != '_'
    ensures var spaced := ReplaceUnderscores(source);
      forall i | 0 <= i < |text| ::
        text[i] == if WordStart(spaced, i) then ToUpper(spaced[i]) else spaced[i]
  {
    var spaced := ReplaceUnderscores(source);
    var text := CapitalizeFrom(spaced, false);
    forall i | 0 <= i < |text|
      ensures text[i] != '_'
      ensures text[i] == if WordStart(spaced, i) then ToUpper(spaced[i]) else spaced[i]
    {
      assert spaced[i] != '_';
    }
    text
  }

  /** Formatting a label twice changes nothing more. */
  lemma FormatSourceLabelIdempotent(source: string)
    ensures FormatSourceLabel(FormatSourceLabel(source)) == FormatSourceLabel(source)
  {
    var once := FormatSourceLabel(source);
    var spaced := ReplaceUnderscores(source);
    assert ReplaceUnderscores(once) == once;
    forall i | 0 <= i < |once| ensures WordStart(once, i) <==> WordStart(spaced, i) {
      assert IsWordChar(once[i]) <==> IsWordChar(spaced[i]);
      if i > 0 {
        assert IsWordChar(once[i - 1]) <==> IsWordChar(spaced[i - 1]);
      }
    }
  }

  /** The panel's content: the source badges and the last update instant. */
  datatype SourcePanel = SourcePanel(badges: seq<string>, lastUpdated: Option<int>)

  /** The source badges, `data_sources?.map(...)`, in list order. */
  function SourceBadges(sources: seq<string>): (badges: seq<string>)
    ensures |badges| == |sources|
    ensures forall i | 0 <= i < |sources| :: badges[i] == FormatSourceLabel(sources[i])
  {
    if sources == [] then [] else [FormatSourceLabel(sources[0])] + SourceBadges(sources[1..])
  }

  /** `DataSourceInfo({ metadata })`: nothing for null metadata; otherwise one badge per
      source in list order (none when the list is absent) and the last update instant.
      A falsy value of 0 drops the update line (React then renders a bare "0"). */
  function RenderDataSources(metadata: Option<Metadata>): (panel: Option<SourcePanel>)
    ensures panel.None? <==> metadata.None?
    ensures panel.Some? ==>
      panel.value.lastUpdated == if metadata.value.lastUpdated == Some(0) then None else metadata.value.lastUpdated
    ensures panel.Some? ==> var sources := metadata.value.dataSources.GetOr([]);
      && |panel.value.badges| == |sources|
      && forall i | 0 <= i < |sources| :: panel.value.badges[i] == FormatSourceLabel(sources[i])
  {
    match metadata
    case None => None
    case Some(m) =>
      var shown := if m.lastUpdated == Some(0) then None else m.lastUpdated;
      Some(SourcePanel(SourceBadges(m.dataSources.GetOr([])), shown))
  }
}

=== FILE: grouping.dfy ===
/** `predictionsByPeriod`: the forecasts grouped by period label. The object the dashboard
    builds keeps its keys in first-appearance order, so it is modelled as a sequence of
    (label, group) pairs. */
module Grouping {
  import opened Wrappers
  import opened Records

  type Groups = seq<(string, seq<PredictionRecord>)>

  /** `groups[period]`: the first group with that label, `None` when there is none. */
  function Lookup(groups: Groups, period: string): (r: Option<seq<PredictionRecord>>)
    ensures r.None? ==> forall k | 0 <= k < |groups| :: groups[k].0 != period
    ensures r.Some? ==> exists k | 0 <= k < |groups| :: groups[k] == (period, r.value)
  {
    if groups == [] then None
    else if groups[0].0 == period then
      assert groups[0] == (period, groups[0].1);
      Some(groups[0].1)
    else
      var rest := Lookup(groups[1..], period);
      assert forall k | 1 <= k < |groups| :: groups[k] == groups[1..][k - 1];
      rest
  }

  /** No label appears twice. */
  predicate DistinctLabels(groups: Groups) {
    forall i, j | 0 <= i < j < |groups| :: groups[i].0 != groups[j].0
  }

  /** Every record of a group carries that group's label, and no group is empty. */
  predicate GroupsLabelled(groups: Groups) {
    forall k | 0 <= k < |groups| ::
      groups[k].1 != [] && forall p | p in groups[k].1 :: p.period == groups[k].0
  }

  /** Sum of the group sizes. */
  function TotalSize(groups: Groups): nat {
    if groups == [] then 0 else |groups[0].1| + TotalSize(groups[1..])
  }

  /** The forecasts of one period, in input order: the reference the grouping is
      measured against. */
  function OfPeriod(preds: seq<PredictionRecord>, period: string): (ps: seq<PredictionRecord>)
    ensures |ps| <= |preds|
    ensures forall p | p in ps :: p in preds && p.period == period
    ensures forall p | p in preds && p.period == period :: p in ps
  {
    if preds == [] then []
    else
      var last := preds[|preds| - 1];
      OfPeriod(preds[..|preds| - 1], period) + (if last.period == period then [last] else [])
  }

  /** The labels present in a grouping. */
  function Labels(groups: Groups): set<string> {
    set k | 0 <= k < |groups| :: groups[k].0
  }

  /** One step of the reduce: append `p` to its period's group, opening the group at the
      end when the label is new. */
  function AddToGroup(groups: Groups, p: PredictionRecord): (r: Groups)
    ensures TotalSize(r) == TotalSize(groups) + 1
    ensures forall period ::
              Lookup(r, period) ==
                (if period == p.period then Some(Lookup(groups, period).GetOr([]) + [p])
                 else Lookup(groups, period))
  {
    if groups == [] then
      assert [] + [p] == [p];
      [(p.period, [p])]
    else if groups[0].0 == p.period then
      [(groups[0].0, groups[0].1 + [p])] + groups[1..]
    else
      [groups[0]] + AddToGroup(groups[1..], p)
  }

  /** A reduce step adds at most the new record's label. */
  lemma {:induction false} AddToGroupLabels(groups: Groups, p: PredictionRecord)
    ensures Labels(AddToGroup(groups, p)) == Labels(groups) + {p.period}
  {
    var r := AddToGroup(groups, p);
    if groups == [] {
    } else if groups[0].0 == p.period {
      assert forall k | 0 <= k < |r| :: r[k].0 == groups[k].0;
    } else {
      var rest := AddToGroup(groups[1..], p);
      AddToGroupLabels(groups[1..], p);
      LabelsCons(groups[0], rest);
      LabelsCons(groups[0], groups[1..]);
      assert groups == [groups[0]] + groups[1..];
    }
  }

  lemma LabelsCons(g: (string, seq<PredictionRecord>), rest: Groups)
    ensures Labels([g] + rest) == {g.0} + Labels(rest)
  {
    var r := [g] + rest;
    forall x ensures x in Labels(r) <==> x in {g.0} + Labels(rest) {
      if x in Labels(r) {
        var k :| 0 <= k < |r| && r[k].0 == x;
        if k > 0 { assert rest[k - 1].0 == x; }
      }
      if x == g.0 {
        assert r[0] == g;
      }
      if x in Labels(rest) {
        var k :| 0 <= k < |rest| && rest[k].0 == x;
        assert r[k + 1].0 == x;
      }
    }
  }

  /** A reduce step keeps labels distinct. */
  lemma {:induction false} AddToGroupDistinct(groups: Groups, p: PredictionRecord)
    requires DistinctLabels(groups)
    ensures DistinctLabels(AddToGroup(groups, p))
  {
    var r := AddToGroup(groups, p);
    if groups == [] {
    } else if groups[0].0 == p.period {
      assert forall k | 0 <= k < |r| :: r[k].0 == groups[k].0;
    } else {
      var rest := AddToGroup(groups[1..], p);
      assert DistinctLabels(groups[1..]) by {
        forall i, j | 0 <= i < j < |groups[1..]| ensures groups[1..][i].0 != groups[1..][j].0 {
          assert groups[1..][i] == groups[i + 1] && groups[1..][j] == groups[j + 1];
        }
      }
      AddToGroupDistinct(groups[1..], p);
      AddToGroupLabels(groups[1..], p);
      forall k | 0 <= k < |groups[1..]| ensures groups[1..][k].0 != groups[0].0 {
        assert groups[1..][k] == groups[k + 1];
      }
      assert groups[0].0 !in Labels(rest);
      forall i, j | 0 <= i < j < |r| ensures r[i].0 != r[j].0 {
        if i == 0 {
          assert r[j].0 in Labels(rest) by { assert rest[j - 1] == r[j]; }
        } else {
          assert r[i] == rest[i - 1] && r[j] == rest[j - 1];
        }
      }
    }
  }

  /** A reduce step keeps every group non-empty and holding only its own period. */
  lemma {:induction false} AddToGroupLabelled(groups: Groups, p: PredictionRecord)
    requires GroupsLabelled(groups)
    ensures GroupsLabelled(AddToGroup(groups, p))
  {
    var r := AddToGroup(groups, p);
    if groups != [] && groups[0].0 != p.period {
      var rest := AddToGroup(groups[1..], p);
      assert GroupsLabelled(groups[1..]) by {
        forall k | 0 <= k < |groups[1..]|
          ensures groups[1..][k].1 != [] && forall q | q in groups[1..][k].1 :: q.period == groups[1..][k].0
        {
          assert groups[1..][k] == groups[k + 1];
        }
      }
      AddToGroupLabelled(groups[1..], p);
      forall k | 0 <= k < |r|
        ensures r[k].1 != [] && forall q | q in r[k].1 :: q.period == r[k].0
      {
        if k > 0 { assert r[k] == rest[k - 1]; }
      }
    } else if groups != [] {
      forall k | 0 <= k < |r|
        ensures r[k].1 != [] && forall q | q in r[k].1 :: q.period == r[k].0
      {
        if k > 0 { assert r[k] == groups[k]; }
      }
    }
  }

  /** The reduce over the forecasts, in input order: every forecast lands in exactly one
      group. */
  function GroupByPeriod(preds: seq<PredictionRecord>): (groups: Groups)
    ensures TotalSize(groups) == |preds|
  {
    if preds == [] then []
    else AddToGroup(GroupByPeriod(preds[..|preds| - 1]), preds[|preds| - 1])
  }

  /** Looking a label up in the grouping gives exactly the forecasts of that period in
      input order, or nothing when there are none; labels are distinct, every group holds
      only its own period, and the group sizes add up to the number of forecasts. */
  lemma {:induction false} GroupByPeriodCorrect(preds: seq<PredictionRecord>)
    ensures forall period ::
              Lookup(GroupByPeriod(preds), period) ==
                (if OfPeriod(preds, period) == [] then None else Some(OfPeriod(preds, period)))
    ensures DistinctLabels(GroupByPeriod(preds))
    ensures GroupsLabelled(GroupByPeriod(preds))
    ensures TotalSize(GroupByPeriod(preds)) == |preds|
  {
    if preds != [] {
      var init, last := preds[..|preds| - 1], preds[|preds| - 1];
      GroupByPeriodCorrect(init);
      AddToGroupDistinct(GroupByPeriod(init), last);
      AddToGroupLabelled(GroupByPeriod(init), last);
      forall period
        ensures Lookup(GroupByPeriod(preds), period) ==
          (if OfPeriod(preds, period) == [] then None else Some(OfPeriod(preds, period)))
      {
        assert Lookup(GroupByPeriod(init), period).GetOr([]) == OfPeriod(init, period);
        assert OfPeriod(preds, period) ==
          OfPeriod(init, period) + (if last.period == period then [last] else []);
        if last.period != period {
          assert OfPeriod(init, period) + [] == OfPeriod(init, period);
        }
      }
    }
  }
}

=== FILE: normalizer.dfy ===
/** The record normaliser: the pure part of fetching sensor data and predictions. Keyed raw
    entries become records carrying the derived index (and, for forecasts, the period and
    its confidence), and the result is sorted newest first. A missing document gives an
    empty sequence. */
module Normalizer {
  import opened Wrappers
  import opened Records
  import opened Aqi
  import opened Confidence
  import opened Sorting

  /** One raw sensor entry as a reading; the derived index is written after the raw
      values, so it always wins. */
  function MakeReading(e: RawEntry): (r: SensorReading)
    ensures r.timestamp == e.0 && r.values == e.1
    ensures ConsistentReading(r)
  {
    SensorReading(e.0, e.1, CalculateAqi(e.1))
  }

  /** A reading whose derived index is the index of its own PM2.5 field. */
  predicate ConsistentReading(r: SensorReading) {
    r.aqiCalculated == CalculateAqi(r.values)
  }

  /** `Object.entries(data).map(...)`, in entry order. */
  function ReadingsOf(entries: seq<RawEntry>): (rs: seq<SensorReading>)
    ensures |rs| == |entries|
    ensures forall i | 0 <= i < |entries| :: rs[i] == MakeReading(entries[i])
  {
    if entries == [] then [] else [MakeReading(entries[0])] + ReadingsOf(entries[1..])
  }

  /** The sensor-data normaliser: one consistent reading per raw entry and no other,
      sorted newest first; a null document gives no readings. */
  function NormalizeSensorData(raw: Option<seq<RawEntry>>): (rs: seq<SensorReading>)
    ensures raw.None? ==> rs == []
    ensures raw.Some? ==> |rs| == |raw.value|
    ensures raw.Some? ==> multiset(rs) == multiset(ReadingsOf(raw.value))
    ensures raw.Some? ==> forall i | 0 <= i < |raw.value| :: MakeReading(raw.value[i]) in rs
    ensures raw.Some? ==> forall r | r in rs :: (r.timestamp, r.values) in raw.value
    ensures forall r | r in rs :: ConsistentReading(r)
    ensures SortedDesc(rs, ReadingTime)
  {
    match raw
    case None => []
    case Some(entries) =>
      var mapped := ReadingsOf(entries);
      var sorted := SortDesc(mapped, ReadingTime);
      assert forall r | r in sorted :: r in mapped by {
        forall r | r in sorted ensures r in mapped {
          SortKeepsElements(mapped, ReadingTime, r);
        }
      }
      assert forall i | 0 <= i < |entries| :: mapped[i] in sorted by {
        forall i | 0 <= i < |entries| ensures mapped[i] in sorted {
          SortKeepsElements(mapped, ReadingTime, mapped[i]);
        }
      }
      assert forall r | r in mapped :: (r.timestamp, r.values) in entries && ConsistentReading(r) by {
        forall r | r in mapped ensures (r.timestamp, r.values) in entries && ConsistentReading(r) {
          var i :| 0 <= i < |mapped| && mapped[i] == r;
          assert entries[i] == (r.timestamp, r.values);
        }
      }
      sorted
  }

  /** One raw forecast entry of a period as a record; the derived fields are written after
      the raw values, so they always win. */
  function MakePrediction(period: string, e: RawEntry): (p: PredictionRecord)
    ensures p.timestamp == e.0 && p.period == period && p.values == e.1
    ensures ConsistentPrediction(p)
  {
    PredictionRecord(e.0, period, e.1, CalculateAqi(e.1), CalculateConfidence(period))
  }

  /** A forecast whose index and confidence are those of its own PM2.5 field and period. */
  predicate ConsistentPrediction(p: PredictionRecord) {
    && p.aqiPrediction == CalculateAqi(p.values)
    && p.confidenceScore == CalculateConfidence(p.period)
  }

  /** The records of one period's entries, in entry order. */
  function PeriodRecords(period: string, entries: seq<RawEntry>): (ps: seq<PredictionRecord>)
    ensures |ps| == |entries|
    ensures forall j | 0 <= j < |entries| :: ps[j] == MakePrediction(period, entries[j])
  {
    if entries == [] then [] else [MakePrediction(period, entries[0])] + PeriodRecords(period, entries[1..])
  }

  /** Every record of a period carries that period and comes from one of its entries. */
  lemma PeriodRecordsFrom(period: string, entries: seq<RawEntry>)
    ensures forall p | p in PeriodRecords(period, entries) ::
      p.period == period && (p.timestamp, p.values) in entries
  {
    var ps := PeriodRecords(period, entries);
    forall p | p in ps ensures p.period == period && (p.timestamp, p.values) in entries {
      var j :| 0 <= j < |ps| && ps[j] == p;
      assert entries[j] == (p.timestamp, p.values);
    }
  }

  /** Some well-formed period of `raw` holds the entry `e` under `period`. */
  predicate EntryFrom(raw: seq<RawPeriod>, period: string, e: RawEntry) {
    exists k | 0 <= k < |raw| :: raw[k].0 == period && raw[k].1.Some? && e in raw[k].1.value
  }

  /** An entry held by a period of the tail is held by a period of the whole list. */
  lemma EntryFromTail(raw: seq<RawPeriod>, period: string, e: RawEntry)
    requires raw != [] && EntryFrom(raw[1..], period, e)
    ensures EntryFrom(raw, period, e)
  {
    var k :| 0 <= k < |raw[1..]| && raw[1..][k].0 == period && raw[1..][k].1.Some? && e in raw[1..][k].1.value;
    assert raw[k + 1] == raw[1..][k];
  }

  /** How many forecast entries the well-formed periods hold together. */
  function EntryCount(raw: seq<RawPeriod>): nat {
    if raw == [] then 0
    else (if raw[0].1.Some? then |raw[0].1.value| else 0) + EntryCount(raw[1..])
  }

  /** The nested loops over periods and their entries, skipping periods whose value is
      not an object. Every record comes from an entry of a well-formed period and carries
      that period, and every such entry yields a record. */
  function Flatten(raw: seq<RawPeriod>): (ps: seq<PredictionRecord>)
    ensures |ps| == EntryCount(raw)
    ensures forall p | p in ps :: ConsistentPrediction(p)
    ensures forall p | p in ps :: EntryFrom(raw, p.period, (p.timestamp, p.values))
    ensures forall k, j | 0 <= k < |raw| && raw[k].1.Some? && 0 <= j < |raw[k].1.value| ::
      MakePrediction(raw[k].0, raw[k].1.value[j]) in ps
  {
    if raw == [] then []
    else
      var head := if raw[0].1.Some? then PeriodRecords(raw[0].0, raw[0].1.value) else [];
      var tail := Flatten(raw[1..]);
      PeriodRecordsFrom(raw[0].0, if raw[0].1.Some? then raw[0].1.value else []);
      assert forall p | p in head :: EntryFrom(raw, p.period, (p.timestamp, p.values)) by {
        forall p | p in head ensures EntryFrom(raw, p.period, (p.timestamp, p.values)) {
          assert raw[0].0 == p.period && raw[0].1.Some? && (p.timestamp, p.values) in raw[0].1.value;
        }
      }
      forall p | p in tail ensures EntryFrom(raw, p.period, (p.timestamp, p.values)) {
        EntryFromTail(raw, p.period, (p.timestamp, p.values));
      }
      forall k, j | 0 <= k < |raw| && raw[k].1.Some? && 0 <= j < |raw[k].1.value|
        ensures MakePrediction(raw[k].0, raw[k].1.value[j]) in head + tail
      {
        if k > 0 {
          assert raw[1..][k - 1] == raw[k];
        }
      }
      head + tail
  }

  /** Flattening distributes over concatenation of the period list. */
  lemma {:induction false} FlattenAppend(a: seq<RawPeriod>, b: seq<RawPeriod>)
    ensures Flatten(a + b) == Flatten(a) + Flatten(b)
  {
    if a != [] {
      assert (a + b)[1..] == a[1..] + b;
      FlattenAppend(a[1..], b);
    } else {
      assert a + b == b;
    }
  }

  /** A period whose value is not an object contributes nothing, wherever it stands. */
  lemma SkipsMalformedPeriod(a: seq<RawPeriod>, period: string, b: seq<RawPeriod>)
    ensures Flatten(a + [(period, None)] + b) == Flatten(a + b)
  {
    FlattenAppend(a + [(period, None)], b);
    FlattenAppend(a, [(period, None)]);
    FlattenAppend(a, b);
  }

  /** The predictions normaliser: the flattened records of every well-formed period, each
      consistent with its period and PM2.5 field, sorted newest first; a null document
      gives no records. */
  function NormalizePredictions(raw: Option<seq<RawPeriod>>): (ps: seq<PredictionRecord>)
    ensures raw.None? ==> ps == []
    ensures raw.Some? ==> |ps| == EntryCount(raw.value)
    ensures raw.Some? ==> multiset(ps) == multiset(Flatten(raw.value))
    ensures forall p | p in ps :: ConsistentPrediction(p)
    ensures SortedDesc(ps, PredictionTime)
  {
    match raw
    case None => []
    case Some(periods) =>
      var flat := Flatten(periods);
      var sorted := SortDesc(flat, PredictionTime);
      assert forall p | p in sorted :: p in flat by {
        forall p | p in sorted ensures p in flat {
          SortKeepsElements(flat, PredictionTime, p);
        }
      }
      sorted
  }

  /** Records sharing an instant keep the order of their entries, as the stable
      `Array.prototype.sort` leaves them. */
  lemma NormalizersAreStable(sensor: seq<RawEntry>, predictions: seq<RawPeriod>, t: int)
    ensures KeyClass(NormalizeSensorData(Some(sensor)), ReadingTime, t) == KeyClass(ReadingsOf(sensor), ReadingTime, t)
    ensures KeyClass(NormalizePredictions(Some(predictions)), PredictionTime, t)
      == KeyClass(Flatten(predictions), PredictionTime, t)
  {
    SortIsStable(ReadingsOf(sensor), ReadingTime, t);
    SortIsStable(Flatten(predictions), PredictionTime, t);
  }

  /** The keys of a document are distinct. */
  predicate DistinctEntryKeys(entries: seq<RawEntry>) {
    forall i, j | 0 <= i < j < |entries| :: entries[i].0 != entries[j].0
  }

  lemma ReadingsOfNoRepeats(entries: seq<RawEntry>)
    requires DistinctEntryKeys(entries)
    ensures var mapped := ReadingsOf(entries);
      forall i, j | 0 <= i < j < |mapped| :: mapped[i] != mapped[j]
  {
    var mapped := ReadingsOf(entries);
    forall i, j | 0 <= i < j < |mapped| ensures mapped[i] != mapped[j] {
      assert mapped[i].timestamp == entries[i].0;
    }
  }

  /** With distinct keys two normalised readings of the same instant are the same
      reading. */
  lemma OneReadingPerInstant(entries: seq<RawEntry>)
    requires DistinctEntryKeys(entries)
    ensures var rs := NormalizeSensorData(Some(entries));
      forall x, y | x in rs && y in rs && x.timestamp == y.timestamp :: x == y
  {
    var rs := NormalizeSensorData(Some(entries));
    forall x, y | x in rs && y in rs && x.timestamp == y.timestamp ensures x == y {
      var a :| 0 <= a < |entries| && entries[a] == (x.timestamp, x.values);
      var b :| 0 <= b < |entries| && entries[b] == (y.timestamp, y.values);
    }
  }

  /** With distinct keys the readings come out strictly newest first. */
  lemma SensorStrictlyDescending(entries: seq<RawEntry>)
    requires DistinctEntryKeys(entries)
    ensures var rs := NormalizeSensorData(Some(entries));
      forall i, j | 0 <= i < j < |rs| :: rs[i].timestamp > rs[j].timestamp
  {
    var rs := NormalizeSensorData(Some(entries));
    var mapped := ReadingsOf(entries);
    ReadingsOfNoRepeats(entries);
    OneReadingPerInstant(entries);
    forall i, j | 0 <= i < j < |rs| ensures rs[i].timestamp > rs[j].timestamp {
      assert ReadingTime(rs[i]) >= ReadingTime(rs[j]);
      MultisetNoRepeats(mapped, rs[i]);
      CountedOnceApart(rs, i, j);
    }
  }

  /** The store document `{"2024-01-01T00:00:00Z": {"PM2_5": 10}}` (the key as epoch
      seconds) gives one reading with index 42. */
  lemma SensorExample()
    ensures var v := Values(None, None, Some(10.0), None, None, None);
      NormalizeSensorData(Some([(1704067200, v)])) == [SensorReading(1704067200, v, 42)]
  {
    WorkedExamples();
  }

  /** The document `{"6hours": {"2024-01-01T00:00:00Z": {"PM2_5": 5}}}` gives one
      "6hours" record with index 21 and confidence 92. */
  lemma PredictionExample()
    ensures var v := Values(None, None, Some(5.0), None, None, None);
      NormalizePredictions(Some([("6hours", Some([(1704067200, v)]))]))
        == [PredictionRecord(1704067200, "6hours", v, 21, 92)]
  {
    WorkedExamples();
  }
}

=== FILE: prediction_card.dfy ===
/** The forecast card: the confidence badge and its colour, the period's display name and
    the predicted-index placeholder. */
module PredictionCard {
  import opened Wrappers
  import opened Records
  import opened Confidence
  import opened Normalizer

  datatype BadgeColor = Green | Yellow | Red

  /** `getConfidenceColor`: green from 80, yellow from 60, red below. */
  function ConfidenceColor(confidence: int): (color: BadgeColor)
    ensures color == Green <==> 80 <= confidence
    ensures color == Yellow <==> 60 <= confidence < 80
    ensures color == Red <==> confidence < 60
  {
    if confidence >= 80 then Green
    else if confidence >= 60 then Yellow
    else Red
  }

  /** `formatPeriod`: the display names of the four card periods; any other label is shown
      as it is. */
  function FormatPeriod(period: string): (name: string)
    ensures period == "6hours" ==> name == "Next 6 Hours"
    ensures period == "48hours" ==> name == "Next 48 Hours"
    ensures period == "15days" ==> name == "Next 15 Days"
    ensures period == "week" ==> name == "Next Week"
    ensures period !in {"6hours", "48hours", "15days", "week"} ==> name == period
  {
    var names := map["6hours" := "Next 6 Hours", "48hours" := "Next 48 Hours",
                     "15days" := "Next 15 Days", "week" := "Next Week"];
    if period in names && names[period] != "" then names[period] else period
  }

  /** The confidence badge: its score and colour. */
  datatype Badge = Badge(score: int, color: BadgeColor)

  /** `{prediction?.confidence_score && ...}`: a badge only for a present forecast with a
      non-zero score (a score of 0 makes React render a bare "0"; no normalised forecast
      has one, every table score lying in [65, 95]). */
  function ConfidenceBadge(prediction: Option<PredictionRecord>): (badge: Option<Badge>)
    ensures badge.Some? <==> prediction.Some? && prediction.value.confidenceScore != 0
    ensures badge.Some? ==>
              && badge.value.score == prediction.value.confidenceScore
              && badge.value.color == ConfidenceColor(badge.value.score)
  {
    match prediction
    case Some(p) => if p.confidenceScore != 0 then Some(Badge(p.confidenceScore, ConfidenceColor(p.confidenceScore))) else None
    case None => None
  }

  /** `{prediction?.aqi_prediction?.toFixed(0) || '--'}`: the predicted index, the
      placeholder when there is no forecast. */
  function PredictedAqiText(prediction: Option<PredictionRecord>): (shown: Option<int>)
    ensures shown.None? <==> prediction.None?
    ensures shown.Some? ==> shown.value == prediction.value.aqiPrediction
  {
    match prediction
    case Some(p) => Some(p.aqiPrediction)
    case None => None
  }

  /** No score of the confidence table is red: the four short horizons are green and
      every other label is yellow. */
  lemma ConfidenceNeverRed(period: string)
    ensures ConfidenceColor(CalculateConfidence(period)) != Red
    ensures ConfidenceColor(CalculateConfidence(period)) == Green <==>
      period in {"6hours", "hour", "day", "48hours"}
  {
  }

  /** A normalised forecast always shows its badge, and never in red. */
  lemma NormalisedForecastBadge(p: PredictionRecord)
    requires ConsistentPrediction(p)
    ensures ConfidenceBadge(Some(p)).Some?
    ensures ConfidenceBadge(Some(p)).value.color != Red
  {
    ConfidenceNeverRed(p.period);
  }
}

=== FILE: records.dfy ===
/** The records the pipeline produces: one per sensor reading and one per forecast, plus the
    metadata snapshot. Pollutant fields are optional; the derived fields are always set,
    because normalisation writes them after spreading the raw values. */
module Records {
  import opened Wrappers

  /** The measurement fields of one raw entry of the store. */
  datatype Values = Values(
    temperature: Option<real>,
    humidity: Option<real>,
    pm25: Option<real>,
    co2: Option<real>,
    vocs: Option<real>,
    nox: Option<real>)

  /** One normalised sensor reading; `timestamp` is the entry's key in the store. */
  datatype SensorReading = SensorReading(timestamp: int, values: Values, aqiCalculated: int)

  /** One normalised forecast: its key, the period it belongs to, and the derived index
      and confidence. */
  datatype PredictionRecord = PredictionRecord(
    timestamp: int,
    period: string,
    values: Values,
    aqiPrediction: int,
    confidenceScore: int)

  /** The metadata document: data-source identifiers and the last update instant. */
  datatype Metadata = Metadata(dataSources: Option<seq<string>>, lastUpdated: Option<int>)

  /** A keyed raw entry, `[key, value]` of `Object.entries`. */
  type RawEntry = (int, Values)

  /** The predictions document: period label to its entries, `None` where the period's
      value is not an object. */
  type RawPeriod = (string, Option<seq<RawEntry>>)

  /** `values.PM2_5 || 0`: the PM2.5 concentration, with an absent field read as 0. */
  function Pm25OrZero(v: Values): (c: real)
    ensures v.pm25.None? ==> c == 0.0
    ensures v.pm25.Some? ==> c == v.pm25.value
  {
    v.pm25.GetOr(0.0)
  }

  function ReadingTime(r: SensorReading): int { r.timestamp }

  function PredictionTime(p: PredictionRecord): int { p.timestamp }
}

=== FILE: refresh.dfy ===
/** One refresh cycle of the dashboard (`loadData`) as a state transition. Each of the three
    fetches catches its own failure and yields an empty sequence or null, so the cycle
    only sees an outcome per resource; a throw escaping the fetches is a separate
    outcome. Fresh sequences replace the held ones only when the change detector says so,
    and the metadata only when it differs. */
module Refresh {
  import opened Wrappers
  import opened Records
  import opened Sorting
  import opened ChangeDetector
  import opened Normalizer

  /** What one HTTP request produced: a parsed document, or a failure (network error,
      non-success status or unparsable body). */
  datatype Fetched<T> = Payload(body: T) | Failed

  /** How the three concurrent fetches of a cycle settled, or that something threw past
      them. */
  datatype CycleOutcome =
    | Settled(
        sensor: Fetched<Option<seq<RawEntry>>>,
        predictions: Fetched<Option<seq<RawPeriod>>>,
        metadata: Fetched<Option<Metadata>>)
    | Threw

  /** The dashboard's state; `lastUpdated` is the clock reading of the last completed
      cycle. */
  datatype AppState = AppState(
    sensorData: seq<SensorReading>,
    predictions: seq<PredictionRecord>,
    metadata: Option<Metadata>,
    isLoading: bool,
    isRefreshing: bool,
    lastUpdated: int,
    error: Option<string>,
    isConnected: bool)

  const LoadErrorMessage := "Failed to load data from Firebase. Please check your connection."

  /** The state on first render, at clock reading `now`. */
  function InitialState(now: int): AppState {
    AppState([], [], None, true, false, now, None, true)
  }

  /** `fetchSensorData`: the normalised readings, or no readings when the request failed. */
  function FetchSensorData(f: Fetched<Option<seq<RawEntry>>>): (rs: seq<SensorReading>)
    ensures f.Failed? ==> rs == []
    ensures f.Payload? ==> rs == NormalizeSensorData(f.body)
    ensures SortedDesc(rs, ReadingTime) && forall r | r in rs :: ConsistentReading(r)
  {
    match f
    case Failed => []
    case Payload(raw) => NormalizeSensorData(raw)
  }

  /** `fetchPredictions`: the normalised forecasts, or none when the request failed. */
  function FetchPredictions(f: Fetched<Option<seq<RawPeriod>>>): (ps: seq<PredictionRecord>)
    ensures f.Failed? ==> ps == []
    ensures f.Payload? ==> ps == NormalizePredictions(f.body)
    ensures SortedDesc(ps, PredictionTime) && forall p | p in ps :: ConsistentPrediction(p)
  {
    match f
    case Failed => []
    case Payload(raw) => NormalizePredictions(raw)
  }

  /** `fetchMetadata`: the document, or null when the request failed. */
  function FetchMetadata(f: Fetched<Option<Metadata>>): (m: Option<Metadata>)
    ensures f.Failed? ==> m.None?
    ensures f.Payload? ==> m == f.body
  {
    match f
    case Failed => None
    case Payload(m) => m
  }

  /** The state while the fetches are in flight: a manual refresh shows the refreshing
      indicator, an automatic one with no readings shows the loading screen, and the
      error is cleared. Nothing else changes. */
  function BeginLoad(st: AppState, manual: bool): (r: AppState)
    ensures r.error.None?
    ensures manual ==> r.isRefreshing && r.isLoading == st.isLoading
    ensures !manual && st.sensorData == [] ==> r.isLoading && r.isRefreshing == st.isRefreshing
    ensures !manual && st.sensorData != [] ==> r.isLoading == st.isLoading && r.isRefreshing == st.isRefreshing
    ensures r.sensorData == st.sensorData && r.predictions == st.predictions && r.metadata == st.metadata
    ensures r.lastUpdated == st.lastUpdated && r.isConnected == st.isConnected
  {
    var flagged :=
      if manual then st.(isRefreshing := true)
      else if |st.sensorData| == 0 then st.(isLoading := true)
      else st;
    flagged.(error := None)
  }

  /** The held sequence after comparing it with an incoming one. */
  function Replace<T(==)>(incoming: seq<T>, held: seq<T>): (r: seq<T>)
    ensures r == incoming || r == held
    ensures r != held ==> HasDataChanged(incoming, Some(held))
    ensures |r| == |incoming|
    ensures forall i | 0 <= i < HeadCount(|incoming|) :: r[i] == incoming[i]
  {
    if HasDataChanged(incoming, Some(held)) then incoming else held
  }

  /** The state once the fetches have settled (or thrown), at clock reading `now`. */
  function FinishLoad(st: AppState, outcome: CycleOutcome, now: int): (r: AppState)
    ensures !r.isLoading && !r.isRefreshing
    ensures outcome.Threw? ==>
      && r.sensorData == st.sensorData && r.predictions == st.predictions && r.metadata == st.metadata
      && r.error == Some(LoadErrorMessage) && !r.isConnected && r.lastUpdated == st.lastUpdated
    ensures outcome.Settled? ==> r.isConnected && r.error == st.error && r.lastUpdated == now
  {
    var settled :=
      match outcome
      case Threw => st.(error := Some(LoadErrorMessage), isConnected := false)
      case Settled(s, p, m) =>
        var freshSensor := FetchSensorData(s);
        var freshPredictions := FetchPredictions(p);
        var freshMetadata := FetchMetadata(m);
        st.(
          sensorData := Replace(freshSensor, st.sensorData),
          predictions := Replace(freshPredictions, st.predictions),
          metadata := if freshMetadata != st.metadata then freshMetadata else st.metadata,
          lastUpdated := now,
          isConnected := true);
    settled.(isLoading := false, isRefreshing := false)
  }

  /** `loadData(isManualRefresh)`: one whole cycle. A settled cycle leaves the held
      sequences agreeing with the incoming ones in length and in the first three records,
      replaces them only when the change detector fires, always ends up with the fetched
      metadata, and reports the connection as up; a throw leaves all held data and the
      last-updated time alone and reports the error. Both end with the loading indicators off. */
  function LoadData(st: AppState, manual: bool, outcome: CycleOutcome, now: int): (r: AppState)
    ensures !r.isLoading && !r.isRefreshing
    ensures outcome.Threw? ==>
      && r.sensorData == st.sensorData && r.predictions == st.predictions && r.metadata == st.metadata
      && r.lastUpdated == st.lastUpdated
      && r.error == Some(LoadErrorMessage) && !r.isConnected
    ensures outcome.Settled? ==>
      var incoming := FetchSensorData(outcome.sensor);
      && (r.sensorData == incoming || r.sensorData == st.sensorData)
      && |r.sensorData| == |incoming|
      && (forall i | 0 <= i < HeadCount(|incoming|) :: r.sensorData[i] == incoming[i])
      && (r.sensorData != st.sensorData ==> HasDataChanged(incoming, Some(st.sensorData)))
    ensures outcome.Settled? ==>
      var incoming := FetchPredictions(outcome.predictions);
      && (r.predictions == incoming || r.predictions == st.predictions)
      && |r.predictions| == |incoming|
      && (forall i | 0 <= i < HeadCount(|incoming|) :: r.predictions[i] == incoming[i])
      && (r.predictions != st.predictions ==> HasDataChanged(incoming, Some(st.predictions)))
    ensures outcome.Settled? ==> r.metadata == FetchMetadata(outcome.metadata)
    ensures outcome.Settled? ==> r.isConnected && r.error.None? && r.lastUpdated == now
  {
    FinishLoad(BeginLoad(st, manual), outcome, now)
  }

  /** The held data is normalised: readings and forecasts sorted newest first, each record
      carrying the derived fields of its own values. */
  predicate WellFormed(st: AppState) {
    && SortedDesc(st.sensorData, ReadingTime)
    && (forall r | r in st.sensorData :: ConsistentReading(r))
    && SortedDesc(st.predictions, PredictionTime)
    && (forall p | p in st.predictions :: ConsistentPrediction(p))
  }

  /** Every cycle, whatever its outcome, keeps the held data normalised, starting from the
      initial state. */
  lemma LoadDataKeepsWellFormed(st: AppState, manual: bool, outcome: CycleOutcome, now: int)
    requires WellFormed(st)
    ensures WellFormed(LoadData(st, manual, outcome, now))
    ensures WellFormed(InitialState(now))
  {
  }

  /** As written, a failed sensor request yields an empty sequence, whose length differs
      from non-empty held readings, so the held readings are replaced by none; the error
      flag stays clear and the connection is reported up. */
  lemma FailedSensorFetchClearsReadings(
    st: AppState, manual: bool,
    p: Fetched<Option<seq<RawPeriod>>>, m: Fetched<Option<Metadata>>, now: int)
    requires st.sensorData != []
    ensures var r := LoadData(st, manual, Settled(Failed, p, m), now);
      r.sensorData == [] && r.isConnected && r.error.None?
  {
  }

  /** The metadata request's outcome has no bearing on the readings and forecasts a cycle
      keeps. */
  lemma MetadataFailureIsolated(
    st: AppState, manual: bool,
    s: Fetched<Option<seq<RawEntry>>>, p: Fetched<Option<seq<RawPeriod>>>,
    m: Fetched<Option<Metadata>>, now: int)
    ensures var withFailure := LoadData(st, manual, Settled(s, p, Failed), now);
      var withMetadata := LoadData(st, manual, Settled(s, p, m), now);
      && withFailure.sensorData == withMetadata.sensorData
      && withFailure.predictions == withMetadata.predictions
      && withFailure.metadata == None
  {
  }
}

=== FILE: rounding.dfy ===
/** The two rounding rules the dashboard uses on exact reals: `Math.round` and
    `Number.prototype.toFixed`. */
module Rounding {

  /** `Math.round(x)`: the nearest integer, halves rounded up (towards +infinity). */
  function Round(x: real): (r: int)
    ensures r as real - 0.5 <= x < r as real + 0.5
  {
    (x + 0.5).Floor
  }

  /** The number `toFixed(0)` prints: `toFixed` rounds the magnitude and keeps the sign,
      so halves go away from zero. */
  function ToFixed0(x: real): (r: int)
    ensures 0.0 <= x ==> r as real - 0.5 <= x < r as real + 0.5
    ensures x < 0.0 ==> r as real - 0.5 < x <= r as real + 0.5
    ensures 0.0 <= x ==> 0 <= r
    ensures x < 0.0 ==> r <= 0
  {
    if x < 0.0 then -((-x) + 0.5).Floor else (x + 0.5).Floor
  }

  /** The number `toFixed(1)` prints: `x` to one decimal place, the nearest tenth with
      halves away from zero. */
  function ToFixed1(x: real): (r: real)
    ensures var n := (r * 10.0).Floor;
      && n as real == r * 10.0
      && (0.0 <= x ==> n as real - 0.5 <= x * 10.0 < n as real + 0.5)
      && (x < 0.0 ==> n as real - 0.5 < x * 10.0 <= n as real + 0.5)
    ensures x - 0.05 <= r <= x + 0.05
    ensures 0.05 <= x <==> 0.0 < r
    ensures 0.05 <= x ==> 0.1 <= r
    ensures 0.0 <= x ==> 0.0 <= r
  {
    ToFixed0(x * 10.0) as real / 10.0
  }

  lemma RoundMonotone(x: real, y: real)
    requires x <= y
    ensures Round(x) <= Round(y)
  {
  }

  /** A value that lies between two integers rounds to an integer between them. */
  lemma ToFixed0Between(x: real, lo: int, hi: int)
    requires lo as real <= x <= hi as real
    ensures lo <= ToFixed0(x) <= hi
  {
  }
}

=== FILE: sorting.dfy ===
/** The descending sort the normalisers apply: `Array.prototype.sort` with the comparator
    `(a, b) => key(b) - key(a)`, which is stable. Modelled as an insertion sort on
    sequences that places each element before the equal keys that follow it in the input. */
module Sorting {

  /** Newest first: keys never increase along the sequence. */
  predicate SortedDesc<T>(s: seq<T>, key: T -> int) {
    forall i, j | 0 <= i < j < |s| :: key(s[i]) >= key(s[j])
  }

  /** Prepending a key no smaller than the head's keeps a sequence sorted. */
  lemma ConsSorted<T>(h: T, t: seq<T>, key: T -> int)
    requires SortedDesc(t, key)
    requires t == [] || key(h) >= key(t[0])
    ensures SortedDesc([h] + t, key)
  {
    var r := [h] + t;
    forall i, j | 0 <= i < j < |r|
      ensures key(r[i]) >= key(r[j])
    {
      if i == 0 {
        assert r[j] == t[j - 1];
      } else {
        assert r[i] == t[i - 1] && r[j] == t[j - 1];
      }
    }
  }

  /** Dropping the head keeps a sequence sorted. */
  lemma SortedTail<T>(s: seq<T>, key: T -> int)
    requires s != [] && SortedDesc(s, key)
    ensures SortedDesc(s[1..], key)
  {
    forall i, j | 0 <= i < j < |s| - 1 ensures key(s[1..][i]) >= key(s[1..][j]) {
      assert s[1..][i] == s[i + 1] && s[1..][j] == s[j + 1];
    }
  }

  /** Inserts `x` into a sorted sequence before the first element whose key is not
      larger than its own. */
  function Insert<T(==)>(x: T, s: seq<T>, key: T -> int): (r: seq<T>)
    requires SortedDesc(s, key)
    ensures SortedDesc(r, key)
    ensures multiset(r) == multiset(s) + multiset{x}
    ensures |r| == |s| + 1
    ensures r[0] == x || (s != [] && r[0] == s[0])
  {
    if s == [] || key(x) >= key(s[0]) then
      ConsSorted(x, s, key);
      [x] + s
    else
      SortedTail(s, key);
      var rest := Insert(x, s[1..], key);
      assert s == [s[0]] + s[1..];
      ConsBehind(s[0], x, s[1..], rest, key);
      [s[0]] + rest
  }

  /** The step where `x` went into the tail `t` behind a head `h` with a larger key,
      giving `rest`: the head still leads a sorted sequence with one more `x`. */
  lemma ConsBehind<T>(h: T, x: T, t: seq<T>, rest: seq<T>, key: T -> int)
    requires SortedDesc([h] + t, key) && key(x) < key(h)
    requires SortedDesc(rest, key) && multiset(rest) == multiset(t) + multiset{x}
    requires rest != [] && (rest[0] == x || (t != [] && rest[0] == t[0]))
    ensures SortedDesc([h] + rest, key)
    ensures multiset([h] + rest) == multiset([h] + t) + multiset{x}
  {
    if t != [] {
      assert ([h] + t)[0] == h && ([h] + t)[1] == t[0];
    }
    ConsSorted(h, rest, key);
  }

  /** The sorted permutation of `s`, newest first. */
  function SortDesc<T(==)>(s: seq<T>, key: T -> int): (r: seq<T>)
    ensures SortedDesc(r, key)
    ensures multiset(r) == multiset(s)
    ensures |r| == |s|
  {
    if s == [] then []
    else
      assert s == [s[0]] + s[1..];
      Insert(s[0], SortDesc(s[1..], key), key)
  }

  /** Sorting keeps exactly the elements of its input. */
  lemma SortKeepsElements<T>(s: seq<T>, key: T -> int, x: T)
    ensures x in SortDesc(s, key) <==> x in s
  {
    var r := SortDesc(s, key);
    assert x in r <==> x in multiset(r);
    assert x in s <==> x in multiset(s);
  }

  /** The elements whose key is `k`, in sequence order. */
  function KeyClass<T>(s: seq<T>, key: T -> int, k: int): seq<T> {
    if s == [] then [] else (if key(s[0]) == k then [s[0]] else []) + KeyClass(s[1..], key, k)
  }

  lemma KeyClassCons<T>(h: T, t: seq<T>, key: T -> int, k: int)
    ensures KeyClass([h] + t, key, k) == (if key(h) == k then [h] else []) + KeyClass(t, key, k)
  {
    assert ([h] + t)[1..] == t;
  }

  /** The elements of `x` alone that have key `k`. */
  function Own<T>(x: T, key: T -> int, k: int): seq<T> {
    if key(x) == k then [x] else []
  }

  /** Inserting `x` puts it ahead of every element with its key. */
  lemma {:induction false} InsertKeyClass<T>(x: T, s: seq<T>, key: T -> int, k: int)
    requires SortedDesc(s, key)
    ensures KeyClass(Insert(x, s, key), key, k) == Own(x, key, k) + KeyClass(s, key, k)
  {
    if s == [] || key(x) >= key(s[0]) {
      InsertInFront(x, s, key, k);
    } else {
      SortedTail(s, key);
      InsertKeyClass(x, s[1..], key, k);
      assert Insert(x, s, key) == [s[0]] + Insert(x, s[1..], key);
      assert s == [s[0]] + s[1..];
      KeyClassBehind(s[0], x, s[1..], Insert(x, s[1..], key), key, k);
    }
  }

  /** The step where `x` goes first. */
  lemma InsertInFront<T>(x: T, s: seq<T>, key: T -> int, k: int)
    requires SortedDesc(s, key) && (s == [] || key(x) >= key(s[0]))
    ensures KeyClass(Insert(x, s, key), key, k) == Own(x, key, k) + KeyClass(s, key, k)
  {
    assert Insert(x, s, key) == [x] + s;
    KeyClassCons(x, s, key, k);
  }

  /** The step where `x` goes behind a head `h` with a larger key: if `x` leads the
      equal-key elements of `rest` relative to `t`, it still does with `h` in front. */
  lemma KeyClassBehind<T>(h: T, x: T, t: seq<T>, rest: seq<T>, key: T -> int, k: int)
    requires key(x) < key(h)
    requires KeyClass(rest, key, k) == Own(x, key, k) + KeyClass(t, key, k)
    ensures KeyClass([h] + rest, key, k) == Own(x, key, k) + KeyClass([h] + t, key, k)
  {
    var head := if key(h) == k then [h] else [];
    KeyClassCons(h, rest, key, k);
    KeyClassCons(h, t, key, k);
    SwapDisjoint(head, Own(x, key, k), KeyClass(t, key, k));
  }

  /** Two pieces of which one is empty can trade places. */
  lemma SwapDisjoint<T>(a: seq<T>, b: seq<T>, c: seq<T>)
    requires a == [] || b == []
    ensures a + (b + c) == b + (a + c)
  {
    if a == [] {
      assert a + (b + c) == b + c == b + (a + c);
    } else {
      assert a + (b + c) == a + c == b + (a + c);
    }
  }

  /** The sort is stable: for every key, the elements with that key keep their input
      order. Together with sortedness and permutation this pins the result down to the
      one `Array.prototype.sort` produces. */
  lemma {:induction false} SortIsStable<T>(s: seq<T>, key: T -> int, k: int)
    ensures KeyClass(SortDesc(s, key), key, k) == KeyClass(s, key, k)
  {
    if s != [] {
      SortIsStable(s[1..], key, k);
      InsertKeyClass(s[0], SortDesc(s[1..], key), key, k);
      KeyClassCons(s[0], s[1..], key, k);
      assert s == [s[0]] + s[1..];
    }
  }

  /** An element counted at most once is found at no later position. */
  lemma CountedOnceApart<T>(s: seq<T>, i: nat, j: nat)
    requires i < j < |s| && multiset(s)[s[i]] <= 1
    ensures s[i] != s[j]
  {
    assert s == s[..j] + [s[j]] + s[j + 1..];
    assert s[i] in s[..j];
  }

  /** In a sequence without repeats every element is counted at most once. */
  lemma {:induction false} MultisetNoRepeats<T>(s: seq<T>, x: T)
    requires forall i, j | 0 <= i < j < |s| :: s[i] != s[j]
    ensures multiset(s)[x] <= 1
  {
    if s != [] {
      assert s == [s[0]] + s[1..];
      assert forall i, j | 0 <= i < j < |s[1..]| :: s[1..][i] != s[1..][j] by {
        forall i, j | 0 <= i < j < |s[1..]| ensures s[1..][i] != s[1..][j] {
          assert s[1..][i] == s[i + 1] && s[1..][j] == s[j + 1];
        }
      }
      MultisetNoRepeats(s[1..], x);
      if x == s[0] {
        assert x !in s[1..] by {
          forall k | 0 <= k < |s[1..]| ensures s[1..][k] != x {
            assert s[1..][k] == s[k + 1];
          }
        }
      }
    }
  }
}

=== FILE: status_card.dfy ===
/** The current-index card: the status classification of an index, the progress bar
    width, the trend line and the '--' placeholder. */
module StatusCard {
  import opened Wrappers
  import opened Records
  import opened Aqi
  import opened Analytics

  /** The six status levels, least to most severe. */
  datatype Level = Good | Moderate | UnhealthyForSensitive | Unhealthy | VeryUnhealthy | Hazardous

  /** Position of a level on the severity scale, 0 (Good) to 5 (Hazardous). */
  function Severity(level: Level): (k: nat)
    ensures k <= 5
  {
    match level
    case Good => 0
    case Moderate => 1
    case UnhealthyForSensitive => 2
    case Unhealthy => 3
    case VeryUnhealthy => 4
    case Hazardous => 5
  }

  /** The inclusive upper index of the first five levels. */
  const UpperThresholds: seq<int> := [50, 100, 150, 200, 300]

  /** What the card shows for a level: its badge colour class and description. */
  datatype Status = Status(level: Level, color: string, description: string)

  /** `getAQIStatus(aqi)`: the first level whose inclusive upper threshold is not below
      the index; above 300 the index is Hazardous. */
  function GetAqiStatus(aqi: int): (s: Status)
    ensures forall k | 0 <= k < 5 :: Severity(s.level) <= k <==> aqi <= UpperThresholds[k]
  {
    if aqi <= 50 then Status(Good, "bg-green-500", "Air quality is satisfactory")
    else if aqi <= 100 then Status(Moderate, "bg-yellow-500", "Acceptable for most people")
    else if aqi <= 150 then Status(UnhealthyForSensitive, "bg-orange-500", "May cause issues for sensitive people")
    else if aqi <= 200 then Status(Unhealthy, "bg-red-500", "May cause health issues")
    else if aqi <= 300 then Status(VeryUnhealthy, "bg-purple-500", "Health warnings for everyone")
    else Status(Hazardous, "bg-rose-900", "Emergency conditions")
  }

  /** A higher index never gives a less severe level. */
  lemma SeverityMonotone(a: int, b: int)
    requires a <= b
    ensures Severity(GetAqiStatus(a).level) <= Severity(GetAqiStatus(b).level)
  {
    var sa, sb := Severity(GetAqiStatus(a).level), Severity(GetAqiStatus(b).level);
    if sb < 5 {
      assert b <= UpperThresholds[sb];
    }
  }

  /** Composed with the calculator, concentration band k gives severity k: a
      concentration up to 12.0 is Good, one above 250.4 Hazardous. */
  lemma BandGivesLevel(c: real)
    ensures Severity(GetAqiStatus(AqiOf(c)).level) == Band(c)
    ensures c <= 12.0 ==> GetAqiStatus(AqiOf(c)).level == Good
    ensures 250.4 < c ==> GetAqiStatus(AqiOf(c)).level == Hazardous
  {
  }

  /** Width of the progress bar in percent: the index as a share of 300, capped at 100. */
  function ProgressWidth(aqi: int): (w: real)
    ensures w <= 100.0
    ensures 300 <= aqi ==> w == 100.0
    ensures aqi < 300 ==> w * 3.0 == aqi as real
  {
    var share := aqi as real / 300.0 * 100.0;
    if share < 100.0 then share else 100.0
  }

  /** The bar never shrinks as the index grows. */
  lemma ProgressWidthMonotone(a: int, b: int)
    requires a <= b
    ensures ProgressWidth(a) <= ProgressWidth(b)
  {
  }

  /** Arrow of the trend line: up (red) or down (green). */
  datatype Arrow = Rising | Falling

  /** The trend line: its arrow and the magnitude shown. */
  datatype TrendLine = TrendLine(arrow: Arrow, magnitude: real)

  /** `{trend && ...}`: no line for a zero trend (React then renders a bare "0");
      otherwise a rising arrow exactly for a positive trend, with the trend's absolute
      value. */
  function TrendDisplay(trend: real): (line: Option<TrendLine>)
    ensures line.None? <==> trend == 0.0
    ensures line.Some? ==> (line.value.arrow == Rising <==> trend > 0.0)
    ensures line.Some? ==> 0.0 < line.value.magnitude && (line.value.magnitude == trend || line.value.magnitude == -trend)
  {
    if trend == 0.0 then None
    else if trend > 0.0 then Some(TrendLine(Rising, trend))
    else Some(TrendLine(Falling, -trend))
  }

  /** `{currentAQI || '--'}`: an index of 0 shows the placeholder. */
  function AqiText(aqi: int): (shown: Option<int>)
    ensures shown.None? <==> aqi == 0
    ensures shown.Some? ==> shown.value == aqi
  {
    if aqi == 0 then None else Some(aqi)
  }

  /** The card and the forecast summary agree: the trend line shows a rising arrow
      exactly when the weekly trend reads worsening. */
  lemma ArrowAgreesWithWeeklyTrend(sensor: seq<SensorReading>)
    ensures var line := TrendDisplay(AqiTrend(sensor));
      (line.Some? && line.value.arrow == Rising) <==> WeeklyTrend(sensor) == Worsening
  {
  }
}

=== FILE: wrappers.dfy ===
/** The absent-or-present wrapper used wherever the dashboard reads an optional field
    (`?.`, `|| default`) or shows the '--' placeholder. */
module Wrappers {

  datatype Option<+T> = None | Some(value: T) {

    /** The wrapped value, or `default` when absent (JavaScript's `x ?? default`). */
    function GetOr(default: T): T {
      match this
      case Some(v) => v
      case None => default
    }
  }
}
